=== FILE: README.md ===
# fetch_ids: choosing CurseForge project and file ids, in Dafny

`fetch_ids.py` fills the `files` array of a modpack manifest. For each
`{"name": ...}` entry of a mod list it does three things:

- it searches CurseForge for projects with that name;
- it picks a project and a file of that project, either automatically
  (`--non-interactive`) or by asking at the console;
- it records the `{projectID, fileID}` pair in the manifest, or records a
  "missing" entry with a reason.

This project models that selection core and proves what it does:

- how search hits are ranked;
- how a file is scored and picked automatically;
- how the two console prompts turn a typed line into a decision;
- how the run over the mod list turns into the output manifest and the
  missing report.

The modules follow the program's structure:

| module | what it holds |
|---|---|
| `Wrappers` | `Option` and `Result` (a raised exception is a `Failure` carrying its text) |
| `Text` | the Python `str` operations the script uses, on ASCII text: `in`, `<`, `strip()`, `isdigit()`, `int()`, `str()` |
| `StableSort` | Python's `list.sort` as a stable insertion sort, proved sorted, a permutation, stable, and the only such ordering |
| `Records` | search hits, file-listing entries and mod-list entries; a JSON field is `Absent`, `Null` or `Present` |
| `Ranking` | `pick_best_match` |
| `AutoFile` | `pick_file_noninteractive`, as written and as intended |
| `Prompts` | `present_candidates_interactive` and `present_files_interactive`, given the typed lines |
| `Manifest` | the manifest as an ordered JSON object, `manifest.copy()` / `out["files"] = ...`, and the pair encoding |
| `Pipeline` | the body of `main`'s loop, the whole run, and the manifest it writes |

Two pieces of the outside world are parameters of the run:

- **The web service** is a `Services` value. Its `search` and `listFiles`
  functions return either the response's `data` list or the text of the
  exception raised.
- **The console** is the sequence of lines the user will type. A prompt
  consumes one line. When no lines are left, `input()` raises `EOFError`,
  and the loop body records that as an error.

The model has three findings. For each one, both the code as written and the
corrected behaviour are modelled. The `Variant` type (`AsWritten` or
`Corrected`) selects which one the run uses.

Some facts about the code that the model follows:

- **Automatic file choice.** The module docstring (line 13) and the comments
  on lines 67, 77 and 82 prefer files that mention 1.21, newer files, and
  the "highest" key. The sort on line 81 is ascending on
  `(-score, fileDate, -downloads)`, and line 83 takes its last element. That
  element has the lowest score, the latest date among equal scores and the
  fewest downloads among equal (score, date). `AutoFile.PickFileAuto` is what
  lines 81-83 compute; `AutoFile.PickFileIntended` is the choice the comments
  describe (finding 1).
- **Order on ties.** The sort is stable, so among files with equal
  (score, date, downloads) line 83 takes the one listed last. The key of the
  chosen file does not depend on the listing order; the file does.
  `AutoFile.PickFileAutoKeyIgnoresOrder` and
  `AutoFile.PickFileAutoTieDependsOnOrder` state both facts.
- **Missing records.** The code writes the reasons `no_search` (line 167),
  `no_file` (lines 177 and 186) and `skipped_by_user` (line 182). For a
  caught exception it writes a record with an `error` field instead (line
  195). `Pipeline.Reason` has one case for each.
- **The list the manual file id is looked up in.** When no file mentions
  1.21, line 126 makes `candidates` the same list object as `files`, and
  the in-place sort on line 127 reorders both. The loop on lines 141-143 then
  walks the date-sorted list, not the listing as fetched.
- **Long numbers.** `int()` converts at most 4300 digits by default. Past
  that it raises `ValueError`. At the project prompt a digit string reaches
  `int()` on line 97, outside the `try`, so the exception ends the entry as
  an error record. A negative number reaches it on line 105, inside the
  `try`, so the entry is skipped.
- **Similarity.** `SequenceMatcher(...).ratio()` is not symmetric in
  general, so the model assumes nothing about it.

## Model

| member | source | states |
|---|---|---|
| Text.AnyContains | fetch_ids.py:73 | `any(sub in x for x in xs)` is true exactly when `sub` occurs in some element of `xs` |
| Text.Contains | fetch_ids.py:73-75 | `sub in s` is true exactly when `sub` occurs in `s` as a contiguous block |
| Text.Strip | fetch_ids.py:93 | the result of `strip()` is no longer than the input and neither starts nor ends with whitespace |
| Text.StripMargins | fetch_ids.py:93 | `strip()` returns a middle block of the input, and only whitespace is cut off on either side |
| Text.StripIdempotent | fetch_ids.py:93 | stripping twice is the same as stripping once |
| Text.LessTransitive | fetch_ids.py:81 | string comparison, used to order file dates, is transitive (irreflexivity and totality are `Text.LessIrreflexive` and `Text.LessTotal`) |
| Text.DecimalString | fetch_ids.py:96-97 | the decimal digits of `n` are non-empty, all digits, reads back as `n`, and has no leading zero unless `n` is 0 |
| Text.Unsigned | fetch_ids.py:105 | `int()` accepts only digits with single underscores between them, at most 4300 of them; on a plain digit string it gives the value the digits spell exactly when there are at most 4300 |
| Text.ParseInt | fetch_ids.py:105 | text that strips to nothing never converts |
| Text.ParseIntStripped | fetch_ids.py:114 | `int(x.strip())` equals `int(x)`, since `int()` strips its argument itself |
| Text.ParseIntOfDigits | fetch_ids.py:96-97 | on a string `isdigit()` accepts, `int()` gives the value the digits spell when there are at most 4300 of them, and raises otherwise |
| Text.ParseIntDecimal | fetch_ids.py:96-101 | `int()` of the decimal digits of `n` is `n` when there are at most 4300 of them; more make `int()` raise |
| Text.ParseIntNegative | fetch_ids.py:103-106 | `int()` of "-" followed by the decimal digits of `n` is `-n` when there are at most 4300 digits, although `isdigit()` rejects the text; a longer one makes `int()` raise |
| StableSort.SortSorted | fetch_ids.py:63 | the sorted list is ordered by its key: no element's key is below an earlier element's key |
| StableSort.SortStable | fetch_ids.py:63 | the sort is stable: the elements with any given key keep their input order |
| StableSort.SortUnique | fetch_ids.py:63 | any ordered, stable permutation of the input is the sorted list, so the model sorts exactly as `list.sort` does |
| StableSort.SortLastIsLastMax | fetch_ids.py:81-83 | the last element of the ascending sort is the last input element whose key no other key exceeds |
| Ranking.PickBestMatch | fetch_ids.py:56-64 | the ranking is a permutation of the hits, ordered by similarity descending and then downloads descending, and hits with equal (similarity, downloads) keep their search order |
| Ranking.TopIsBest | fetch_ids.py:169 | the first ranked hit is a search hit with the highest similarity and, among those, the most downloads |
| Ranking.RankingIsUnique | fetch_ids.py:63-64 | any ordering with those three properties equals the ranking |
| AutoFile.InVersions | fetch_ids.py:70-73 | true exactly when some `gameVersions` entry contains "1.21" (a missing or null list is empty) |
| AutoFile.InFileName | fetch_ids.py:75 | true exactly when "1.21" occurs in the file name, a missing or null name being empty |
| AutoFile.Score | fetch_ids.py:72-76 | the score is at most 3; it is at least 2 exactly when some game version mentions "1.21", and odd exactly when the file name does |
| AutoFile.PickFileAuto | fetch_ids.py:66-83 | none exactly for an empty listing; otherwise a listed file with the lowest score, then the latest date among equal scores, then the fewest downloads among equal (score, date), and the last such file in listing order |
| AutoFile.PickFileAutoIsScan | fetch_ids.py:81-83 | sorting and taking the last element selects the same file as one scan for the last maximal key |
| AutoFile.PickFileAutoKeyIgnoresOrder | fetch_ids.py:81-83 | reordering the listing does not change the (score, date, downloads) key of the chosen file |
| AutoFile.PickFileAutoTieDependsOnOrder | fetch_ids.py:81-83 | of two files with equal keys, whichever is listed second is chosen |
| AutoFile.CreateListingPicksOldFile | fetch_ids.py:81-83 | for a listing of a 1.20 jar (score 0) and a newer 1.21 jar (score 3), the code picks the 1.20 jar and the intended ranking picks the 1.21 jar |
| AutoFile.PickFileIntended | fetch_ids.py:13 | corrected automatic pick: none exactly for an empty listing; otherwise the highest score, then the latest date, then the most downloads |
| Prompts.ShownCount | fetch_ids.py:91 | at most 6 entries are shown and numbered, and all of them when there are fewer |
| Prompts.ReadReply | fetch_ids.py:93-97 | a typed line is blank exactly when it strips to nothing; a line stripping to "s" or "S" is the skip key; a line stripping to at most 4300 digits is the number those digits denote, leading zeros and surrounding blanks included; reading raises, with Python's digit-limit message, exactly when the line strips to more than 4300 digits |
| Prompts.ReadWord | fetch_ids.py:93-96 | a line that strips to something other than blank, the skip key or digits is read as that stripped word |
| Prompts.PaddedLinesRead | fetch_ids.py:93-97 | " 03 " reads as the number 3 and " s " as the skip key, since the line is stripped before it is tested |
| Prompts.NumberIsInt | fetch_ids.py:96-97 | a line read as a number holds what `int()` makes of it |
| Prompts.ReadNumber | fetch_ids.py:96-97 | typing the decimal digits of `n` reads as the number `n`, or raises the digit-limit `ValueError` when it has more than 4300 digits |
| Prompts.ReadSkipKey | fetch_ids.py:95 | "s" and "S" are both the skip key, since the line is lower-cased before comparing |
| Prompts.DecideProject | fetch_ids.py:95-109 | a blank line or the skip key yields no project; a number `n` between 1 and the shown count selects the `n`-th ranked hit and any other number the manual record `{"id": n, "name": None}`; any project chosen is one of the shown entries or a manual record |
| Prompts.PresentCandidates | fetch_ids.py:85-109 | no hits yields no project; with hits the call raises exactly when the line is a digit string too long for `int()`, since line 97 is outside the `try`; any project chosen is a search hit or a manual record |
| Prompts.ProjectNumberSelects | fetch_ids.py:96-102 | with hits, any line that reads as the number `k` (padded, with leading zeros) selects the `k`-th ranked hit when `k` is a shown index and the manual record with id `k` otherwise |
| Prompts.ProjectBlankOrSkipKey | fetch_ids.py:93-95 | a line that strips to nothing, "s" or "S" yields no project |
| Prompts.ProjectIndexSelects | fetch_ids.py:96-99 | typing the number of a shown entry selects that ranked hit |
| Prompts.ProjectIdTyped | fetch_ids.py:100-102 | typing a number that is not a shown index yields the manual record with that id, or the digit-limit error when it has more than 4300 digits |
| Prompts.ProjectOverlongRaises | fetch_ids.py:96-97 | with hits, a digit string of more than 4300 digits raises out of the prompt, even one whose leading zeros give it the value of a shown index |
| Prompts.ProjectNegativeIdTyped | fetch_ids.py:103-109 | typing `-n` yields the manual record with id `-n`; when `n` has more than 4300 digits the `ValueError` is caught and the entry is skipped |
| Prompts.ProjectWordTyped | fetch_ids.py:103-109 | a word becomes a manual record with the id `int()` gives it, and skips when `int()` raises |
| Prompts.ProjectGarbageSkips | fetch_ids.py:103-109 | a line that is neither digits nor an integer skips the entry |
| Prompts.Mentions | fetch_ids.py:121-123 | a file is preferred exactly when some game version or its file name contains "1.21", which is exactly when its automatic score is positive |
| Prompts.Preferred | fetch_ids.py:119-124 | the files mentioning "1.21" in a game version or the file name, each as often as in the listing |
| Prompts.PreferredAppend | fetch_ids.py:119-124 | the preferred files of a concatenation are those of the first part followed by those of the second, so the loop keeps listing order |
| Prompts.PreferredOne | fetch_ids.py:123-124 | a one-file listing keeps its file exactly when that file mentions "1.21"; with `Prompts.PreferredAppend` this fixes the preferred list, order and repeats included |
| Prompts.Shortlist | fetch_ids.py:119-126 | when some file mentions "1.21", exactly those files, in listing order (`Prompts.Preferred`); when none does, the whole listing |
| Prompts.SortByDate | fetch_ids.py:127 | raises the `NoneType`/`str` comparison error exactly when there are two or more candidates and one has a null date; otherwise a permutation ordered newest date first, with equal dates keeping their order |
| Prompts.FileCandidates | fetch_ids.py:119-127 | the candidate list is the shortlist sorted by date, non-empty for a non-empty listing, and fails exactly when the date sort raises |
| Prompts.FindById | fetch_ids.py:141-145 | none exactly when no listed file has the id; otherwise the first listed file with it |
| Prompts.IdScanListCases | fetch_ids.py:125-143 | when some file mentions "1.21", the manual-id loop walks the listing as fetched; when none does, `candidates` is `files` itself, so the loop walks the date-sorted candidates, a permutation of the listing |
| Prompts.DecideFile | fetch_ids.py:133-148 | any reply other than a number selects the first candidate; a number selects a shown candidate or a file with that id in the list the loop walks; none only when no file there has that id |
| Prompts.DecideFileIntended | fetch_ids.py:132-134 | corrected file decision: the skip key yields no file; every other reply decides as the code does |
| Prompts.PresentFiles | fetch_ids.py:115-148 | an empty listing yields no file; the call raises exactly when the date sort raises or the typed line is a digit string too long for `int()`; any file chosen is from the listing |
| Prompts.AskProject | fetch_ids.py:85-97 | with no hits nothing is read and no project results; with hits, an exhausted console raises the `EOFError`, and otherwise the first line is consumed and decided by `Prompts.PresentCandidates`; it raises exactly when there are hits and either no line is left or the line is a digit string too long for `int()`; any project chosen is a hit or a manual record |
| Prompts.AskFile | fetch_ids.py:115-132 | no line is read unless the prompt is shown; an empty listing yields no file and a failing date sort its `TypeError`; once the prompt is shown, an exhausted console raises the `EOFError`, and otherwise the first line is consumed and decided by `Prompts.PresentFiles`; any file chosen is from the listing |
| Prompts.FileNumberSelects | fetch_ids.py:135-145 | for a non-empty listing whose date sort succeeds, any line that reads as the number `k` selects the `k`-th candidate when `k` is a shown index, and otherwise the first file with id `k` in the list the loop walks, or none |
| Prompts.FileIndexSelects | fetch_ids.py:135-138 | typing the number of a shown file selects that candidate |
| Prompts.FileIdTyped | fetch_ids.py:139-145 | typing a number that is not a shown index selects the first file with that id in the list the loop walks (the date-sorted listing when no file mentions "1.21"), or none; more than 4300 digits raise |
| Prompts.FileOverlongRaises | fetch_ids.py:135-136 | a digit string of more than 4300 digits raises out of the file prompt |
| Prompts.TypedIdFollowsDateOrder | fetch_ids.py:125-143 | for two files that share id 5, mention no "1.21" and are listed older first, typing 5 returns the newer file, the first in date order rather than the first listed |
| Prompts.FileDefaultsToFirst | fetch_ids.py:146-148 | a blank line or one that is not a number selects the first candidate |
| Prompts.SkipKeySelectsFirst | fetch_ids.py:133-134 | as written, the skip key "s" at the file prompt selects the first candidate |
| Prompts.SkipKeySkips | fetch_ids.py:132 | corrected, "s" and "S" at the file prompt yield no file |
| Manifest.Lookup | fetch_ids.py:198 | `m.get(k)` is none exactly when `k` is not a key; otherwise some member of `m` pairs `k` with that value |
| Manifest.LookupDistinct | fetch_ids.py:197 | in a dict, where no key repeats, each member's key finds that member's value |
| Manifest.Set | fetch_ids.py:197-198 | assigning to an existing key keeps the key order; a new key goes last |
| Manifest.SetDistinct | fetch_ids.py:197-198 | the copy with `files` assigned still has no repeated key |
| Manifest.SetLookupSame | fetch_ids.py:198 | after the assignment, `files` holds the new value |
| Manifest.SetLookupOther | fetch_ids.py:197 | after the assignment, every other key holds its template value |
| Manifest.DecodeEncodeFiles | fetch_ids.py:190 | the pairs written as `{"projectID", "fileID"}` objects read back unchanged and in order |
| Pipeline.AutoPick | fetch_ids.py:174-175 | the automatic pick finds no file exactly for an empty listing, and otherwise picks a listed file |
| Pipeline.Top | fetch_ids.py:169 | the project the automatic mode takes is a hit with the highest similarity |
| Pipeline.ResolveAutomatic | fetch_ids.py:170-178 | a failed listing of the top hit gives an error record with the exception's text; an empty listing gives a `no_file` record for the top hit's id; any other listing gives a pair naming the top hit and the file the automatic pick takes from that listing |
| Pipeline.FetchId | fetch_ids.py:112-114 | a non-zero project id is used as is and reads nothing; id 0 reads exactly one line and yields what `int()` makes of it, fails when `int()` raises, and fails with the `EOFError` when no line is left |
| Pipeline.ListAndAsk | fetch_ids.py:115-148 | a failed listing gives an error record with its text and an empty one a `no_file` record for the recorded id, neither reading a line; otherwise the file prompt's answer decides: its exception becomes an error record with that text, no file a `no_file` record for the recorded id, and a file the pair of the recorded id and that file; any pair's file is in the listing of the id listed; at most one line is read |
| Pipeline.ResolveFiles | fetch_ids.py:184-190 | a non-zero project id lists and asks with that id; id 0 reads one line, records the `EOFError` when none is left, an error when `int()` rejects the line, and otherwise lists the typed id while recording 0 as written and the typed id corrected; a pair names a file from its project's listing whenever the recorded id is not 0 and, corrected, always; at most two lines are read |
| Pipeline.ResolveInteractive | fetch_ids.py:179-187 | the project prompt's answer decides: its exception becomes an error record with that text, no project `skipped_by_user`, and a project goes on to `Pipeline.ResolveFiles` with its id and the remaining lines; at most three lines are read and `no_search` never reported |
| Pipeline.InteractiveSkipKey | fetch_ids.py:180-183 | with hits, a blank line or the skip key at the project prompt records `skipped_by_user` and consumes only that line |
| Pipeline.InteractiveNumberTyped | fetch_ids.py:180-184 | with hits, a line reading as the number `k` goes on to the files of the `k`-th ranked hit when `k` is shown, and of project `k` otherwise |
| Pipeline.Resolve | fetch_ids.py:163-196 | the outcome names the entry; a failed search gives an error record with its text; an empty search gives `no_search`, and nothing else does; `skipped_by_user` occurs only interactively; with hits, automatic mode ends as `Pipeline.ResolveAutomatic` says for the top hit, pairing it with the automatic pick from its listing, and reads no line, while interactive mode ends as `Pipeline.ResolveInteractive` says; at most three lines are read |
| Pipeline.Names | fetch_ids.py:157-160 | the processed names are those of the entries with a non-empty name, and no others |
| Pipeline.NamesAppend | fetch_ids.py:157-160 | the names of a concatenated mod list are those of the first part followed by those of the second, so names keep mod-list order |
| Pipeline.NamesOne | fetch_ids.py:158-160 | a single entry contributes its name exactly when the name is non-empty; with `Pipeline.NamesAppend` this fixes the list, order and repeats included |
| Pipeline.Run | fetch_ids.py:157-196 | one outcome per processed name, in mod-list order and carrying that name; each outcome satisfies the guarantees of `Pipeline.Resolve` |
| Pipeline.ResolvedPairs | fetch_ids.py:190 | `files_array` holds exactly the pairs of the resolved outcomes |
| Pipeline.MissingRecords | fetch_ids.py:167-195 | `missing` holds exactly the records of the unresolved outcomes |
| Pipeline.ListsAppend | fetch_ids.py:155-195 | the pairs and the records of concatenated outcomes are those of the first part followed by those of the second, so both lists follow processing order |
| Pipeline.ListsOne | fetch_ids.py:177-195 | one resolved outcome contributes exactly its pair and no record; one unresolved outcome exactly its record and no pair |
| Pipeline.PartitionCounts | fetch_ids.py:157-196 | every processed entry lands in exactly one of `files_array` and `missing` |
| Pipeline.Collect | fetch_ids.py:155-196 | the loop builds `files_array` and `missing` as the run's resolved pairs and missing records |
| Pipeline.FillManifest | fetch_ids.py:150-198 | the output is the template with only `files` replaced, keys unrepeated and in template order, and every other template member keeping its value; `files` decodes to the pairs in order; pairs plus missing records number the processed entries |
| Pipeline.AutomaticNeverSkips | fetch_ids.py:170-178 | a non-interactive run reads no console line and never records `skipped_by_user` |
| Pipeline.AutomaticPairsAreTopHits | fetch_ids.py:169-175 | in a non-interactive run every pair names the top-ranked hit for its entry, whose listing succeeded and is non-empty, and the file the automatic pick takes from that listing |
| Pipeline.PairsFromListings | fetch_ids.py:188-190 | with the corrected recording, every pair names a file that its project's listing returned |
| Pipeline.ReenteredIdIsLost | fetch_ids.py:188-190 | as written, typing 0, then 1234 at the re-prompt, then 1 records project 0 with a file that only project 1234 lists |
| Pipeline.ReenteredIdIsKept | fetch_ids.py:112-115 | corrected, the same typed lines record project 1234, whose listing holds the file |

## Findings

| source | as written | input that shows it | evidently intended | confidence | as-written member | corrected member |
|---|---|---|---|---|---|---|
| fetch_ids.py:81-83 | sorts ascending on `(-score, fileDate, -downloads)` and takes the last element, which has the lowest score (and, among equals, the fewest downloads) | a listing of `create-1.20.jar` (versions `["1.20.1"]`, 2023-01-01, 500 downloads) and `create-1.21.jar` (versions `["1.21.1"]`, 2024-06-01, 100 downloads) picks the 1.20 jar | the highest score, then the latest date, then the most downloads, as the module docstring (line 13) and the comment on line 82 say | high; not executed | AutoFile.CreateListingPicksOldFile | AutoFile.PickFileIntended |
| fetch_ids.py:133-134 | `s` at the file prompt returns `candidates[0]` | any non-empty listing, typing `s` at the file prompt | `s` skips the file, as the prompt on line 132 offers | medium; not executed | Prompts.SkipKeySelectsFirst | Prompts.DecideFileIntended |
| fetch_ids.py:188-190 | the pair and the `no_file` record use `mod.get("id")`, which is still 0 after a project id was entered at line 114 | typing `0` at the project prompt, `1234` at the re-prompt and `1` at the file prompt records `{"projectID": 0, "fileID": <a file of project 1234>}` | record the id the files were listed for | medium; not executed | Pipeline.ReenteredIdIsLost | Pipeline.ResolveFiles |

## Left out

- HTTP: `search_mod` and `get_mod_files` are the `Services` functions. The URL, headers, API key, game id, page size and timeouts are not modelled. A raised exception is modelled as a `Failure` with its text.
- `similar`: `SequenceMatcher(None, a.lower(), b.lower()).ratio()` is an uninterpreted parameter of type `(string, string) -> real`. Nothing is assumed about it, neither symmetry nor a range.
- Printing, `time.sleep(0.2)`, argument parsing, and reading and writing the JSON files are not modelled. `Pipeline.FillManifest` returns the manifest to write and the missing list that `main` prints.
- `input()` is modelled by the console line sequence. A `KeyboardInterrupt` and the prompt texts are not modelled.
- The file listing at line 130 slices `f.get('displayName')[:80]`. A file without a display name makes that line raise, and the entry becomes an error record. `displayName` is not part of the model, so this path is left out.
- Python's Unicode behaviour of `strip()`, `isdigit()`, `int()` and `lower()` is not modelled. The model covers ASCII text only: whitespace is codes 9-13 and 28-32, and digits are `0`-`9`.
- Exception texts:
  - the date-sort `TypeError` always carries the `NoneType`/`str` message, including when both compared dates are null;
  - the `int()` message quotes the text with plain quotes, where Python uses `repr`;
  - the `EOFError` text is `EOF when reading a line`.
- JSON values of unexpected types are not modelled. Examples are a non-integer `id`, a non-string `name`, a `downloadCount` that is not an integer, and floats. The records have typed fields, so `int(project_id)` and `int(file_id)` cannot fail in the model.
- The truthiness tests `if not mod` and `if not file_choice` always pass for the non-empty records the prompts return. They are therefore modelled by the `Option` cases alone.
- `pick_best_match` runs at line 169 in interactive mode too, but its result is not used there. It cannot fail on typed records, so interactive mode does not compute it.
- Pipeline.Resolve: when `int()` raises on line 114, states only that the record is an error, as `Pipeline.FetchId` leaves that text open too.
- Pipeline.FetchId: when `int()` raises on line 114, the error record carries the `invalid literal` text, even for a valid number of more than 4300 digits, where Python's text is the digit-limit message.
- The 4300-digit limit of `int()` is Python's default. Changing it with `sys.set_int_max_str_digits()` or the `PYTHONINTMAXSTRDIGITS` environment variable is not modelled.

=== FILE: auto_file.dfy ===
/** Automatic file choice (`pick_file_noninteractive`). Each file gets a
    score for how strongly it mentions the target game version "1.21", and
    the listing is sorted ascending by `(-score, fileDate, -downloads)`;
    the last element is returned. The sort is ascending on the NEGATED
    score, so the last element has the LOWEST score: `PickFileAuto` models
    that as written and `PickFileIntended` the highest-score choice the
    comments describe. */
module AutoFile {
  import opened Wrappers
  import opened Records
  import Text
  import StableSort

  /** The version the selection logic looks for, as a substring. */
  const Target: string := "1.21"

  /** `f.get("gameVersions") or []`. */
  function Versions(f: File): seq<string> {
    f.gameVersions.Or([])
  }

  /** `f.get("fileName") or ""`. */
  function FileName(f: File): string {
    f.fileName.Or("")
  }

  /** `f.get("fileDate") or ""`. */
  function Date(f: File): string {
    f.fileDate.Or("")
  }

  /** `f.get("downloadCount") or 0`. */
  function Downloads(f: File): int {
    f.downloadCount.Or(0)
  }

  /** Some `gameVersions` entry contains the target. */
  function InVersions(f: File): (r: bool)
    ensures r <==> exists i :: 0 <= i < |Versions(f)| && Text.Occurs(Target, Versions(f)[i])
  {
    Text.AnyContains(Versions(f), Target)
  }

  /** The file name contains the target. */
  function InFileName(f: File): (r: bool)
    ensures r <==> Text.Occurs(Target, FileName(f))
  {
    Text.Contains(FileName(f), Target)
  }

  /** The 0..3 score: 2 for a version entry naming the target, 1 for a file
      name naming it. */
  function Score(f: File): (r: nat)
    ensures r <= 3
    ensures r >= 2 <==> exists i :: 0 <= i < |Versions(f)| && Text.Occurs(Target, Versions(f)[i])
    ensures r % 2 == 1 <==> Text.Occurs(Target, FileName(f))
  {
    (if InVersions(f) then 2 else 0) + (if InFileName(f) then 1 else 0)
  }

  /** Python's ascending order on `(int, str, int)` tuples. */
  predicate Asc(a: (int, string, int), b: (int, string, int)) {
    || a.0 < b.0
    || (a.0 == b.0 && (Text.Less(a.1, b.1) || (a.1 == b.1 && a.2 < b.2)))
  }

  lemma AscIsStrictTotalOrder()
    ensures StableSort.StrictTotalOrder(Asc)
  {
    forall a: (int, string, int)
      ensures !Asc(a, a)
    {
      Text.LessIrreflexive(a.1);
    }
    forall a: (int, string, int), b: (int, string, int), c: (int, string, int) | Asc(a, b) && Asc(b, c)
      ensures Asc(a, c)
    {
      if a.0 == b.0 == c.0 && Text.Less(a.1, b.1) && Text.Less(b.1, c.1) {
        Text.LessTransitive(a.1, b.1, c.1);
      }
    }
    forall a: (int, string, int), b: (int, string, int)
      ensures a == b || Asc(a, b) || Asc(b, a)
    {
      Text.LessTotal(a.1, b.1);
    }
  }

  /** The sort key as written: `(-score, fileDate, -downloads)`. */
  function AutoKey(f: File): (int, string, int) {
    (-(Score(f) as int), Date(f), -Downloads(f))
  }

  /** `pick_file_noninteractive(files)` as written: the last element of the
      ascending sort, i.e. the lowest score, then the latest date, then the
      fewest downloads, then the last such file in listing order. */
  function PickFileAuto(files: seq<File>): (r: Option<File>)
    ensures r.None? <==> |files| == 0
    ensures r.Some? ==> r.value in files
    ensures r.Some? ==> forall f :: f in files ==> Score(r.value) <= Score(f)
    ensures r.Some? ==> forall f :: f in files && Score(f) == Score(r.value) ==> !Text.Less(Date(r.value), Date(f))
    ensures r.Some? ==> forall f :: f in files && Score(f) == Score(r.value) && Date(f) == Date(r.value) ==>
                           Downloads(r.value) <= Downloads(f)
    ensures r.Some? ==> exists i :: 0 <= i < |files| && files[i] == r.value &&
                           forall j :: i < j < |files| ==> AutoKey(files[j]) != AutoKey(files[i])
  {
    if |files| == 0 then None
    else
      AscIsStrictTotalOrder();
      var sorted := StableSort.Sort(files, AutoKey, Asc);
      StableSort.SortLastIsLastMax(files, AutoKey, Asc);
      var m := StableSort.LastMax(files, AutoKey, Asc);
      assert forall j :: m < j < |files| ==> AutoKey(files[j]) != AutoKey(files[m]) by {
        assert forall k :: !Asc(k, k);
      }
      Some(sorted[|files| - 1])
  }

  /** The key the comments ask for: score, date and downloads all ascending,
      so the maximum has the highest score, latest date, most downloads. */
  function IntendedKey(f: File): (int, string, int) {
    (Score(f), Date(f), Downloads(f))
  }

  /** The automatic choice the comments describe: highest score, then latest
      date, then most downloads; on a full tie the last in listing order, as
      the sort-then-last form gives. */
  function PickFileIntended(files: seq<File>): (r: Option<File>)
    ensures r.None? <==> |files| == 0
    ensures r.Some? ==> r.value in files
    ensures r.Some? ==> forall f :: f in files ==> Score(f) <= Score(r.value)
    ensures r.Some? ==> forall f :: f in files && Score(f) == Score(r.value) ==> !Text.Less(Date(r.value), Date(f))
    ensures r.Some? ==> forall f :: f in files && Score(f) == Score(r.value) && Date(f) == Date(r.value) ==>
                           Downloads(f) <= Downloads(r.value)
    ensures r.Some? ==> exists i :: 0 <= i < |files| && files[i] == r.value &&
                           forall j :: i < j < |files| ==> IntendedKey(files[j]) != IntendedKey(files[i])
  {
    if |files| == 0 then None
    else
      AscIsStrictTotalOrder();
      var m := StableSort.LastMax(files, IntendedKey, Asc);
      assert forall j :: m < j < |files| ==> IntendedKey(files[j]) != IntendedKey(files[m]) by {
        assert forall k :: !Asc(k, k);
      }
      Some(files[m])
  }

  /** The direct form of the source's choice: one left-to-right scan keeping
      the last file whose as-written key is not beaten. */
  function ScanLastMax(files: seq<File>): (i: nat)
    requires |files| > 0
    ensures i < |files|
    ensures forall j :: 0 <= j < |files| ==> !Asc(AutoKey(files[i]), AutoKey(files[j]))
    ensures forall j :: i < j < |files| ==> Asc(AutoKey(files[j]), AutoKey(files[i]))
  {
    AscIsStrictTotalOrder();
    StableSort.LastMax(files, AutoKey, Asc)
  }

  /** Sorting and taking the last element equals the direct scan. */
  lemma PickFileAutoIsScan(files: seq<File>)
    requires |files| > 0
    ensures PickFileAuto(files) == Some(files[ScanLastMax(files)])
  {
    AscIsStrictTotalOrder();
    StableSort.SortLastIsLastMax(files, AutoKey, Asc);
  }

  /** The chosen file's key does not depend on the listing order, but on a
      full key tie the file itself does (see `PickFileAutoTieDependsOnOrder`). */
  lemma PickFileAutoKeyIgnoresOrder(files: seq<File>, other: seq<File>)
    requires multiset(other) == multiset(files)
    requires |files| > 0
    ensures |other| > 0
    ensures AutoKey(PickFileAuto(files).value) == AutoKey(PickFileAuto(other).value)
  {
    assert |other| == |multiset(other)| == |files|;
    AscIsStrictTotalOrder();
    PickFileAutoIsScan(files);
    PickFileAutoIsScan(other);
    var a := PickFileAuto(files).value;
    var b := PickFileAuto(other).value;
    var i := ScanLastMax(files);
    var j := ScanLastMax(other);
    assert b in multiset(files);
    var bi :| 0 <= bi < |files| && files[bi] == b;
    assert a in multiset(other);
    var aj :| 0 <= aj < |other| && other[aj] == a;
    assert !Asc(AutoKey(files[i]), AutoKey(files[bi]));
    assert !Asc(AutoKey(other[j]), AutoKey(other[aj]));
  }

  // ---------------------------------------------------------------------------
  // Concrete listings

  /** The two-file listing of a Create project, one file for 1.20 and one for 1.21. */
  function CreateFiles(): seq<File> {
    [ File(10, Present("create-1.20.jar"), Present(["1.20.1"]), Present("2023-01-01"), Present(500)),
      File(11, Present("create-1.21.jar"), Present(["1.21.1"]), Present("2024-06-01"), Present(100)) ]
  }

  lemma CreateFileScores()
    ensures Score(CreateFiles()[0]) == 0
    ensures Score(CreateFiles()[1]) == 3
  {
    assert Text.ContainsFrom("1.21.1", Target, 0);
    assert Text.ContainsFrom("create-1.21.jar", Target, 0) by {
      assert Text.ContainsFrom("create-1.21.jar", Target, 7);
    }
    assert !Text.ContainsFrom("1.20.1", Target, 0);
    assert !Text.ContainsFrom("create-1.20.jar", Target, 0) by {
      assert !Text.ContainsFrom("create-1.20.jar", Target, 8);
      assert !Text.ContainsFrom("create-1.20.jar", Target, 4);
    }
  }

  /** As written, the automatic choice on that listing is the 1.20 file;
      the intended choice is the 1.21 file. */
  lemma CreateListingPicksOldFile()
    ensures PickFileAuto(CreateFiles()).value.id == 10
    ensures PickFileIntended(CreateFiles()).value.id == 11
  {
    CreateFileScores();
  }

  /** Two files with the same score, date and downloads: which one is chosen
      depends only on their order in the listing. */
  lemma PickFileAutoTieDependsOnOrder(a: File, b: File)
    requires AutoKey(a) == AutoKey(b)
    ensures PickFileAuto([a, b]) == Some(b)
    ensures PickFileAuto([b, a]) == Some(a)
  {
    var r := PickFileAuto([a, b]).value;
    var i :| 0 <= i < 2 && [a, b][i] == r && forall j :: i < j < 2 ==> AutoKey([a, b][j]) != AutoKey([a, b][i]);
    assert i == 1;
    var r' := PickFileAuto([b, a]).value;
    var i' :| 0 <= i' < 2 && [b, a][i'] == r' && forall j :: i' < j < 2 ==> AutoKey([b, a][j]) != AutoKey([b, a][i']);
    assert i' == 1;
  }
}

=== FILE: manifest.dfy ===
/** The manifest document: a JSON object whose members keep their order
    (Python dicts keep insertion order, and `json.dump` writes them so).
    The run copies the template and replaces only its `files` member. */
module Manifest {
  import opened Wrappers

  datatype Json =
    | JNull
    | JBool(b: bool)
    | JInt(i: int)
    | JString(s: string)
    | JArray(items: seq<Json>)
    | JObject(members: seq<(string, Json)>)

  /** A JSON object's members, in order. */
  type Object = seq<(string, Json)>

  /** A Python dict never holds a key twice. */
  ghost predicate DistinctKeys(m: Object) {
    forall i, j :: 0 <= i < j < |m| ==> m[i].0 != m[j].0
  }

  function Keys(m: Object): (r: seq<string>)
    ensures |r| == |m| && forall i :: 0 <= i < |m| ==> r[i] == m[i].0
  {
    if |m| == 0 then [] else [m[0].0] + Keys(m[1..])
  }

  /** `m.get(k)`. */
  function Lookup(m: Object, k: string): (r: Option<Json>)
    ensures r.None? <==> k !in Keys(m)
    ensures r.Some? ==> exists i :: 0 <= i < |m| && m[i] == (k, r.value)
  {
    if |m| == 0 then None
    else if m[0].0 == k then Some(m[0].1)
    else
      var r := Lookup(m[1..], k);
      assert Keys(m) == [m[0].0] + Keys(m[1..]);
      if r.Some? then
        var i :| 0 <= i < |m[1..]| && m[1..][i] == (k, r.value);
        assert m[i + 1] == (k, r.value);
        r
      else r
  }

  /** In a dict, each member's key finds that member's value. */
  lemma {:induction false} LookupDistinct(m: Object, i: nat)
    requires DistinctKeys(m)
    requires i < |m|
    ensures Lookup(m, m[i].0) == Some(m[i].1)
  {
    if i > 0 {
      LookupDistinct(m[1..], i - 1);
    }
  }

  /** `out = m.copy(); out[k] = v`: an existing key keeps its place and gets
      the new value; a new key goes last. */
  function Set(m: Object, k: string, v: Json): (r: Object)
    ensures Keys(r) == if k in Keys(m) then Keys(m) else Keys(m) + [k]
  {
    if |m| == 0 then [(k, v)]
    else if m[0].0 == k then
      var r := [(k, v)] + m[1..];
      assert Keys(r) == [k] + Keys(m[1..]) == Keys(m);
      r
    else
      var rest := Set(m[1..], k, v);
      var r := [m[0]] + rest;
      assert Keys(m) == [m[0].0] + Keys(m[1..]);
      assert Keys(r) == [m[0].0] + Keys(rest);
      r
  }

  /** The assignment never duplicates a key. */
  lemma {:induction false} SetDistinct(m: Object, k: string, v: Json)
    requires DistinctKeys(m)
    ensures DistinctKeys(Set(m, k, v))
  {
    var r := Set(m, k, v);
    var km := Keys(m);
    var kr := Keys(r);
    assert forall i, j :: 0 <= i < j < |km| ==> km[i] != km[j];
    forall i, j | 0 <= i < j < |r|
      ensures r[i].0 != r[j].0
    {
      assert kr[i] == r[i].0 && kr[j] == r[j].0;
      if k !in km && j == |km| {
        assert kr[i] == km[i];
      }
    }
  }

  /** After the assignment `k` maps to `v`. */
  lemma {:induction false} SetLookupSame(m: Object, k: string, v: Json)
    ensures Lookup(Set(m, k, v), k) == Some(v)
  {
    if |m| > 0 && m[0].0 != k {
      SetLookupSame(m[1..], k, v);
      assert Set(m, k, v)[1..] == Set(m[1..], k, v);
    }
  }

  /** Every other key maps to what it mapped to before. */
  lemma {:induction false} SetLookupOther(m: Object, k: string, v: Json, k': string)
    requires k' != k
    ensures Lookup(Set(m, k, v), k') == Lookup(m, k')
  {
    if |m| > 0 {
      if m[0].0 == k {
        assert Set(m, k, v)[1..] == m[1..];
      } else {
        SetLookupOther(m[1..], k, v, k');
        assert Set(m, k, v)[1..] == Set(m[1..], k, v);
      }
    }
  }

  // ---------------------------------------------------------------------------
  // The `files` member

  /** One resolved mod: `{"projectID": ..., "fileID": ...}`. */
  datatype Pair = Pair(projectID: int, fileID: int)

  function EncodePair(p: Pair): Json {
    JObject([("projectID", JInt(p.projectID)), ("fileID", JInt(p.fileID))])
  }

  function EncodeFiles(ps: seq<Pair>): Json {
    JArray(seq(|ps|, i requires 0 <= i < |ps| => EncodePair(ps[i])))
  }

  /** What a reader of the manifest recovers from one `files` element. */
  function DecodePair(j: Json): Option<Pair> {
    match j
    case JObject(ms) =>
      (match (Lookup(ms, "projectID"), Lookup(ms, "fileID"))
       case (Some(JInt(a)), Some(JInt(b))) => Some(Pair(a, b))
       case _ => None)
    case _ => None
  }

  function DecodeItems(items: seq<Json>): Option<seq<Pair>> {
    if |items| == 0 then Some([])
    else
      var p :- DecodePair(items[0]);
      var ps :- DecodeItems(items[1..]);
      Some([p] + ps)
  }

  function DecodeFiles(j: Json): Option<seq<Pair>> {
    match j
    case JArray(items) => DecodeItems(items)
    case _ => None
  }

  lemma DecodeEncodePair(p: Pair)
    ensures DecodePair(EncodePair(p)) == Some(p)
  {
    var ms := [("projectID", JInt(p.projectID)), ("fileID", JInt(p.fileID))];
    assert ms[1..] == [("fileID", JInt(p.fileID))];
    assert |"projectID"| != |"fileID"|;
    assert Lookup(ms, "fileID") == Lookup(ms[1..], "fileID");
  }

  /** The pairs written into `files` read back unchanged, in order. */
  lemma {:induction false} DecodeEncodeFiles(ps: seq<Pair>)
    ensures DecodeFiles(EncodeFiles(ps)) == Some(ps)
  {
    var items := EncodeFiles(ps).items;
    if |ps| > 0 {
      DecodeEncodePair(ps[0]);
      assert items[1..] == EncodeFiles(ps[1..]).items;
      DecodeEncodeFiles(ps[1..]);
      assert ps == [ps[0]] + ps[1..];
    }
  }
}

=== FILE: pipeline.dfy ===
/** The run over the mod list: every named entry is searched, a project and
    a file are chosen for it (automatically or at the console), and it ends
    up either as a `{projectID, fileID}` pair in the manifest's `files` or as
    a record in the missing report. The web service and the similarity score
    are parameters; the console is the sequence of lines the user will type. */
module Pipeline {
  import opened Wrappers
  import opened Records
  import Text
  import Ranking
  import AutoFile
  import Prompts
  import opened Manifest

  /** `--non-interactive` given or not. */
  datatype Mode = Automatic | Interactive

  /** What the run asks of the outside world: the project search and the file
      listing (an exception they raise is a `Failure` carrying its text),
      and the fuzzy name similarity. */
  datatype Services = Services(
    search: string -> Result<seq<Project>>,
    listFiles: int -> Result<seq<File>>,
    similar: Ranking.Similarity)

  /** Why an entry went to the missing report. `NoFile` carries the
      `projectID` field of the record. */
  datatype Reason = NoSearch | NoFile(projectID: int) | SkippedByUser | Error(detail: string)

  datatype Missing = Missing(name: string, reason: Reason)

  /** What became of one named entry. */
  datatype Outcome = Resolved(name: string, pair: Pair) | Unresolved(record: Missing) {
    function Name(): string {
      if Resolved? then name else record.name
    }
  }

  /** `str(e)` of the `ValueError` that `int(t)` raises. */
  function IntError(t: string): string {
    "invalid literal for int() with base 10: '" + t + "'"
  }

  /** `rest` is what is left of `console` after some lines were read. */
  ghost predicate Consumed(console: seq<string>, rest: seq<string>) {
    |rest| <= |console| && rest == console[|console| - |rest|..]
  }

  // ---------------------------------------------------------------------------
  // One entry

  /** The automatic file choice: as written, or with the ranking the
      automatic mode evidently intends. */
  function AutoPick(variant: Prompts.Variant, files: seq<File>): (r: Option<File>)
    ensures r.None? <==> |files| == 0
    ensures r.Some? ==> r.value in files
  {
    match variant
    case AsWritten => AutoFile.PickFileAuto(files)
    case Corrected => AutoFile.PickFileIntended(files)
  }

  /** The project the automatic mode takes: the first of the ranked hits. */
  function Top(svc: Services, name: string, candidates: seq<Project>): (r: Project)
    requires |candidates| > 0
    ensures r in candidates
    ensures forall c :: c in candidates ==> Ranking.Score(svc.similar, name, c) <= Ranking.Score(svc.similar, name, r)
  {
    var ranked := Ranking.PickBestMatch(svc.similar, name, candidates);
    assert |ranked| == |multiset(ranked)| == |multiset(candidates)| == |candidates|;
    Ranking.TopIsBest(svc.similar, name, candidates);
    assert ranked[0] in multiset(ranked);
    ranked[0]
  }

  /** The automatic branch of the loop body, once the search returned hits. */
  function ResolveAutomatic(svc: Services, variant: Prompts.Variant, name: string, candidates: seq<Project>): (o: Outcome)
    requires |candidates| > 0
    ensures o.Name() == name
    ensures o.Resolved? ==> FromListing(svc, o.pair) && o.pair.projectID == Top(svc, name, candidates).id
    ensures o.Unresolved? ==> o.record.reason.Error? || o.record.reason.NoFile?
    ensures o.Unresolved? && o.record.reason.NoFile? ==> svc.listFiles(o.record.reason.projectID) == Success([])
    ensures ListingOutcome(svc, variant, name, Top(svc, name, candidates).id, o)
  {
    var mod := Top(svc, name, candidates);
    match svc.listFiles(mod.id)
    case Failure(e) => Unresolved(Missing(name, Error(e)))
    case Success(files) =>
      match AutoPick(variant, files)
      case None => Unresolved(Missing(name, NoFile(mod.id)))
      case Some(f) => Resolved(name, Pair(mod.id, f.id))
  }

  /** How the automatic branch ends for the listing of project `pid`: a
      failed listing is an error record, an empty one a `no_file` record for
      `pid`, and any other the pair of `pid` and the file the automatic pick
      chooses from it. */
  ghost predicate ListingOutcome(svc: Services, variant: Prompts.Variant, name: string, pid: int, o: Outcome) {
    match svc.listFiles(pid)
    case Failure(e) => o == Unresolved(Missing(name, Error(e)))
    case Success(files) =>
      if |files| == 0 then o == Unresolved(Missing(name, NoFile(pid)))
      else o == Resolved(name, Pair(pid, AutoPick(variant, files).value.id))
  }

  /** The start of `present_files_interactive`: a falsy project id (here 0)
      is replaced by one read from the console. */
  function FetchId(modId: int, console: seq<string>): (r: (Result<int>, seq<string>))
    ensures r.1 == console || (|console| > 0 && r.1 == console[1..])
    ensures modId != 0 ==> r == (Success(modId), console)
    ensures modId == 0 && |console| == 0 ==> r == (Failure(Prompts.EofError), console)
    ensures modId == 0 && |console| > 0 ==>
              && r.1 == console[1..]
              && (r.0.Success? <==> Text.ParseInt(console[0]).Some?)
              && (r.0.Success? ==> r.0.value == Text.ParseInt(console[0]).value)
  {
    if modId != 0 then (Success(modId), console)
    else if |console| == 0 then (Failure(Prompts.EofError), console)
    else
      var t := Text.Strip(console[0]);
      Text.ParseIntStripped(console[0]);
      match Text.ParseInt(t)
      case None => (Failure(IntError(t)), console[1..])
      case Some(v) => (Success(v), console[1..])
  }

  /** `present_files_interactive(mod)` and the recording of its result. As
      written the pair and the `no_file` record carry the chosen project's
      own id; corrected, the id the files were listed for. */
  function ResolveFiles(svc: Services, variant: Prompts.Variant, name: string, modId: int, console: seq<string>)
    : (r: (Outcome, seq<string>))
    ensures r.0.Name() == name
    ensures r.0.Resolved? && (variant == Prompts.Corrected || r.0.pair.projectID != 0) ==> FromListing(svc, r.0.pair)
    ensures r.0.Unresolved? ==> r.0.record.reason.Error? || r.0.record.reason.NoFile?
    ensures Consumed(console, r.1) && |console| - |r.1| <= 2
    ensures modId != 0 ==> r == ListAndAsk(svc, variant, name, modId, modId, console)
    ensures modId == 0 && |console| == 0 ==> r == (Unresolved(Missing(name, Error(Prompts.EofError))), console)
    ensures modId == 0 && |console| > 0 && Text.ParseInt(console[0]).None? ==>
              r.0.Unresolved? && r.0.record.reason.Error? && r.1 == console[1..]
    ensures modId == 0 && |console| > 0 && Text.ParseInt(console[0]).Some? ==>
              var typed := Text.ParseInt(console[0]).value;
              r == ListAndAsk(svc, variant, name, typed, if variant == Prompts.AsWritten then 0 else typed, console[1..])
  {
    var fetched := FetchId(modId, console);
    AfterFetch(svc, variant, name, modId, fetched.0, console, fetched.1)
  }

  /** What follows the id prompt: its failure recorded, or the file prompt. */
  function AfterFetch(svc: Services, variant: Prompts.Variant, name: string, modId: int,
                      got: Result<int>, console: seq<string>, afterId: seq<string>)
    : (r: (Outcome, seq<string>))
    requires afterId == console || (|console| > 0 && afterId == console[1..])
    requires got.Success? && got.value != modId ==> modId == 0
    ensures r.0.Name() == name
    ensures r.0.Resolved? && (variant == Prompts.Corrected || r.0.pair.projectID != 0) ==> FromListing(svc, r.0.pair)
    ensures r.0.Unresolved? ==> r.0.record.reason.Error? || r.0.record.reason.NoFile?
    ensures Consumed(console, r.1) && |console| - |r.1| <= 2
    ensures got.Failure? ==> r == (Unresolved(Missing(name, Error(got.detail))), afterId)
    ensures got.Success? ==>
              r == ListAndAsk(svc, variant, name, got.value, if variant == Prompts.AsWritten then modId else got.value, afterId)
  {
    match got
    case Failure(e) => (Unresolved(Missing(name, Error(e))), afterId)
    case Success(fetched) =>
      var recorded := if variant == Prompts.AsWritten then modId else fetched;
      var r := ListAndAsk(svc, variant, name, fetched, recorded, afterId);
      ConsumedAtMostTwo(console, afterId, r.1);
      r
  }

  /** Listing the files of project `fetched` and asking for one of them. */
  function ListAndAsk(svc: Services, variant: Prompts.Variant, name: string, fetched: int, recorded: int, console: seq<string>)
    : (r: (Outcome, seq<string>))
    ensures r.0.Name() == name
    ensures r.0.Resolved? ==> r.0.pair.projectID == recorded
    ensures r.0.Resolved? && recorded == fetched ==> FromListing(svc, r.0.pair)
    ensures r.0.Unresolved? ==> r.0.record.reason.Error? || r.0.record.reason.NoFile?
    ensures r.1 == console || (|console| > 0 && r.1 == console[1..])
    ensures svc.listFiles(fetched).Failure? ==>
              r == (Unresolved(Missing(name, Error(svc.listFiles(fetched).detail))), console)
    ensures svc.listFiles(fetched) == Success([]) ==> r == (Unresolved(Missing(name, NoFile(recorded))), console)
    ensures r.0.Unresolved? && r.0.record.reason.NoFile? ==> r.0.record.reason.projectID == recorded
    ensures r.0.Resolved? ==>
              && svc.listFiles(fetched).Success?
              && exists f :: f in svc.listFiles(fetched).value && f.id == r.0.pair.fileID
    ensures svc.listFiles(fetched).Success? && |svc.listFiles(fetched).value| > 0 ==>
              var asked := Prompts.AskFile(variant, svc.listFiles(fetched).value, console);
              && r.1 == asked.1
              && (asked.0.Failure? ==> r.0 == Unresolved(Missing(name, Error(asked.0.detail))))
              && (asked.0 == Success(None) ==> r.0 == Unresolved(Missing(name, NoFile(recorded))))
              && (asked.0.Success? && asked.0.value.Some? ==> r.0 == Resolved(name, Pair(recorded, asked.0.value.value.id)))
  {
    match svc.listFiles(fetched)
    case Failure(e) => (Unresolved(Missing(name, Error(e))), console)
    case Success(files) =>
      var (chosen, rest) := Prompts.AskFile(variant, files, console);
      match chosen
      case Failure(e) => (Unresolved(Missing(name, Error(e))), rest)
      case Success(None) => (Unresolved(Missing(name, NoFile(recorded))), rest)
      case Success(Some(f)) => (Resolved(name, Pair(recorded, f.id)), rest)
  }

  lemma ConsumedTrans(a: seq<string>, b: seq<string>, c: seq<string>)
    requires Consumed(a, b) && Consumed(b, c)
    ensures Consumed(a, c)
  {
  }

  /** Two steps that each drop at most the first line consume at most two lines. */
  lemma ConsumedAtMostTwo(a: seq<string>, b: seq<string>, c: seq<string>)
    requires b == a || (|a| > 0 && b == a[1..])
    requires c == b || (|b| > 0 && c == b[1..])
    ensures Consumed(a, c) && |a| - |c| <= 2
  {
    assert Consumed(a, b);
    assert Consumed(b, c);
    ConsumedTrans(a, b, c);
  }

  /** How the project prompt's answer `chosen` decides the entry: an
      exception is an error record, no project is `skipped_by_user`, and a
      project goes on to its files with the lines left after the prompt. */
  ghost predicate AfterChoice(svc: Services, variant: Prompts.Variant, name: string, chosen: Result<Option<Project>>,
                              rest: seq<string>, r: (Outcome, seq<string>)) {
    match chosen
    case Failure(e) => r == (Unresolved(Missing(name, Error(e))), rest)
    case Success(None) => r == (Unresolved(Missing(name, SkippedByUser)), rest)
    case Success(Some(mod)) => r == ResolveFiles(svc, variant, name, mod.id, rest)
  }

  /** The interactive branch of the loop body, once the search returned hits. */
  function ResolveInteractive(svc: Services, variant: Prompts.Variant, name: string, candidates: seq<Project>, console: seq<string>)
    : (r: (Outcome, seq<string>))
    ensures r.0.Name() == name
    ensures r.0.Resolved? && (variant == Prompts.Corrected || r.0.pair.projectID != 0) ==> FromListing(svc, r.0.pair)
    ensures r.0.Unresolved? ==> !r.0.record.reason.NoSearch?
    ensures Consumed(console, r.1) && |console| - |r.1| <= 3
    ensures var asked := Prompts.AskProject(svc.similar, name, candidates, console);
            AfterChoice(svc, variant, name, asked.0, asked.1, r)
  {
    var asked := Prompts.AskProject(svc.similar, name, candidates, console);
    AfterProject(svc, variant, name, asked.0, console, asked.1)
  }

  /** The interactive branch once the project prompt has answered `chosen`
      and left `rest` of the console. */
  function AfterProject(svc: Services, variant: Prompts.Variant, name: string, chosen: Result<Option<Project>>,
                        console: seq<string>, rest: seq<string>)
    : (r: (Outcome, seq<string>))
    requires rest == console || (|console| > 0 && rest == console[1..])
    ensures r.0.Name() == name
    ensures r.0.Resolved? && (variant == Prompts.Corrected || r.0.pair.projectID != 0) ==> FromListing(svc, r.0.pair)
    ensures r.0.Unresolved? ==> !r.0.record.reason.NoSearch?
    ensures Consumed(console, r.1) && |console| - |r.1| <= 3
    ensures AfterChoice(svc, variant, name, chosen, rest, r)
  {
    match chosen
    case Failure(e) => (Unresolved(Missing(name, Error(e))), rest)
    case Success(None) => (Unresolved(Missing(name, SkippedByUser)), rest)
    case Success(Some(mod)) =>
      var r := ResolveFiles(svc, variant, name, mod.id, rest);
      ConsumedTrans(console, rest, r.1);
      r
  }

  /** The pair was listed: its project's file listing succeeded and holds a
      file with its file id. */
  ghost predicate FromListing(svc: Services, p: Pair) {
    && svc.listFiles(p.projectID).Success?
    && exists f :: f in svc.listFiles(p.projectID).value && f.id == p.fileID
  }

  /** What every outcome guarantees about the services it was computed from. */
  ghost predicate Sound(svc: Services, mode: Mode, variant: Prompts.Variant, o: Outcome) {
    && SearchSound(svc, mode, variant, o)
    && match o
    case Resolved(name, p) =>
      && svc.search(name).Success?
      && |svc.search(name).value| > 0
      && ((mode == Automatic || variant == Prompts.Corrected || p.projectID != 0) ==> FromListing(svc, p))
      && (mode == Automatic ==> p.projectID == Top(svc, name, svc.search(name).value).id)
    case Unresolved(Missing(name, reason)) =>
      && (reason == NoSearch ==> svc.search(name) == Success([]))
      && (reason == SkippedByUser ==> mode == Interactive)
      && (reason.NoFile? && mode == Automatic ==> svc.listFiles(reason.projectID) == Success([]))
  }

  /** How the search decides the outcome: a failed search is an error record,
      an empty one a `no_search` record, and with hits the automatic mode
      ends as the listing of the top hit says. */
  ghost predicate SearchSound(svc: Services, mode: Mode, variant: Prompts.Variant, o: Outcome) {
    var name := o.Name();
    match svc.search(name)
    case Failure(e) => o == Unresolved(Missing(name, Error(e)))
    case Success(hits) =>
      if |hits| == 0 then o == Unresolved(Missing(name, NoSearch))
      else mode == Automatic ==> ListingOutcome(svc, variant, name, Top(svc, name, hits).id, o)
  }

  /** The body of `main`'s loop for an entry whose name is `name`. */
  function Resolve(svc: Services, mode: Mode, variant: Prompts.Variant, name: string, console: seq<string>)
    : (r: (Outcome, seq<string>))
    ensures r.0.Name() == name
    ensures Sound(svc, mode, variant, r.0)
    ensures Consumed(console, r.1) && |console| - |r.1| <= 3
    ensures mode == Automatic ==> r.1 == console
    ensures mode == Interactive && svc.search(name).Success? && |svc.search(name).value| > 0 ==>
              r == ResolveInteractive(svc, variant, name, svc.search(name).value, console)
  {
    match svc.search(name)
    case Failure(e) => (Unresolved(Missing(name, Error(e))), console)
    case Success(candidates) =>
      if |candidates| == 0 then (Unresolved(Missing(name, NoSearch)), console)
      else
        match mode
        case Automatic => (ResolveAutomatic(svc, variant, name, candidates), console)
        case Interactive => ResolveInteractive(svc, variant, name, candidates, console)
  }

  // ---------------------------------------------------------------------------
  // The whole list

  /** The names of the entries `main` processes, in order: the others are
      skipped by `if not name: continue`. */
  function Names(entries: seq<Entry>): (r: seq<string>)
    ensures |r| <= |entries|
    ensures forall x :: x in r <==> exists i :: 0 <= i < |entries| && entries[i].HasName() && entries[i].name.value == x
  {
    if |entries| == 0 then []
    else
      var front := entries[..|entries| - 1];
      var e := entries[|entries| - 1];
      assert forall i :: 0 <= i < |front| ==> front[i] == entries[i];
      Names(front) + (if e.HasName() then [e.name.value] else [])
  }

  /** `Names` keeps the mod-list order and the multiplicity of names: the
      names of a concatenation are the names of its parts, concatenated, and
      an entry contributes its name exactly when it has one. */
  lemma {:induction false} NamesAppend(a: seq<Entry>, b: seq<Entry>)
    ensures Names(a + b) == Names(a) + Names(b)
  {
    if |b| > 0 {
      var b' := b[..|b| - 1];
      assert (a + b)[..|a + b| - 1] == a + b';
      assert (a + b)[|a + b| - 1] == b[|b| - 1];
      NamesAppend(a, b');
    } else {
      assert a + b == a;
    }
  }

  /** A single entry contributes its name exactly when it has one. */
  lemma NamesOne(e: Entry)
    ensures Names([e]) == if e.HasName() then [e.name.value] else []
  {
    assert [e][..0] == [];
  }

  /** The outcomes of the named entries, in order, and the console lines left. */
  function Run(svc: Services, mode: Mode, variant: Prompts.Variant, entries: seq<Entry>, console: seq<string>)
    : (r: (seq<Outcome>, seq<string>))
    ensures |r.0| == |Names(entries)|
    ensures forall i :: 0 <= i < |r.0| ==> r.0[i].Name() == Names(entries)[i]
    ensures forall o :: o in r.0 ==> Sound(svc, mode, variant, o)
    ensures Consumed(console, r.1)
    ensures mode == Automatic ==> r.1 == console
  {
    if |entries| == 0 then ([], console)
    else
      var front := entries[..|entries| - 1];
      var e := entries[|entries| - 1];
      var (outs, rest) := Run(svc, mode, variant, front, console);
      if e.HasName() then
        var (o, rest') := Resolve(svc, mode, variant, e.name.value, rest);
        assert rest[|rest| - |rest'|..] == console[|console| - |rest'|..];
        (outs + [o], rest')
      else (outs, rest)
  }

  /** `files_array`: the pairs of the resolved outcomes, in order. */
  function ResolvedPairs(outs: seq<Outcome>): (r: seq<Pair>)
    ensures forall p :: p in r <==> exists o :: o in outs && o.Resolved? && o.pair == p
  {
    if |outs| == 0 then []
    else
      var front := outs[..|outs| - 1];
      var o := outs[|outs| - 1];
      assert outs == front + [o];
      ResolvedPairs(front) + (if o.Resolved? then [o.pair] else [])
  }

  /** `missing`: the records of the unresolved outcomes, in order. */
  function MissingRecords(outs: seq<Outcome>): (r: seq<Missing>)
    ensures forall m :: m in r <==> exists o :: o in outs && o.Unresolved? && o.record == m
  {
    if |outs| == 0 then []
    else
      var front := outs[..|outs| - 1];
      var o := outs[|outs| - 1];
      assert outs == front + [o];
      MissingRecords(front) + (if o.Unresolved? then [o.record] else [])
  }

  /** `files_array` and `missing` keep the order of the outcomes, one
      element per outcome of their kind: both lists of a concatenation are
      the lists of its parts, concatenated. */
  lemma {:induction false} ListsAppend(a: seq<Outcome>, b: seq<Outcome>)
    ensures ResolvedPairs(a + b) == ResolvedPairs(a) + ResolvedPairs(b)
    ensures MissingRecords(a + b) == MissingRecords(a) + MissingRecords(b)
  {
    if |b| > 0 {
      var b' := b[..|b| - 1];
      assert (a + b)[..|a + b| - 1] == a + b';
      assert (a + b)[|a + b| - 1] == b[|b| - 1];
      ListsAppend(a, b');
    } else {
      assert a + b == a;
    }
  }

  /** A single outcome contributes its pair or its record, and nothing else. */
  lemma ListsOne(o: Outcome)
    ensures ResolvedPairs([o]) == if o.Resolved? then [o.pair] else []
    ensures MissingRecords([o]) == if o.Unresolved? then [o.record] else []
  {
    assert [o][..0] == [];
  }

  /** The loop step: one more outcome extends the list of its kind. */
  lemma ListsSnoc(outs: seq<Outcome>, o: Outcome)
    ensures ResolvedPairs(outs + [o]) == ResolvedPairs(outs) + (if o.Resolved? then [o.pair] else [])
    ensures MissingRecords(outs + [o]) == MissingRecords(outs) + (if o.Unresolved? then [o.record] else [])
  {
    ListsAppend(outs, [o]);
    ListsOne(o);
  }

  /** Every processed entry lands in exactly one of the two lists. */
  lemma {:induction false} PartitionCounts(outs: seq<Outcome>)
    ensures |ResolvedPairs(outs)| + |MissingRecords(outs)| == |outs|
  {
    if |outs| > 0 {
      PartitionCounts(outs[..|outs| - 1]);
    }
  }

  /** One more entry extends the run by that entry's outcome, if it is named. */
  lemma RunSnoc(svc: Services, mode: Mode, variant: Prompts.Variant, entries: seq<Entry>, console: seq<string>, i: nat)
    requires i < |entries|
    ensures var prev := Run(svc, mode, variant, entries[..i], console);
            var next := Run(svc, mode, variant, entries[..i + 1], console);
            if entries[i].HasName() then
              var step := Resolve(svc, mode, variant, entries[i].name.value, prev.1);
              next.0 == prev.0 + [step.0] && next.1 == step.1
            else next == prev
  {
    assert entries[..i + 1][..i] == entries[..i];
  }

  /** `main`'s loop: the two lists built from the mod list. */
  method Collect(svc: Services, mode: Mode, variant: Prompts.Variant, entries: seq<Entry>, console: seq<string>)
    returns (filesArray: seq<Pair>, missing: seq<Missing>)
    ensures filesArray == ResolvedPairs(Run(svc, mode, variant, entries, console).0)
    ensures missing == MissingRecords(Run(svc, mode, variant, entries, console).0)
  {
    filesArray := [];
    missing := [];
    var lines := console;
    ghost var outs: seq<Outcome> := [];
    for i := 0 to |entries|
      invariant outs == Run(svc, mode, variant, entries[..i], console).0
      invariant lines == Run(svc, mode, variant, entries[..i], console).1
      invariant filesArray == ResolvedPairs(outs)
      invariant missing == MissingRecords(outs)
    {
      RunSnoc(svc, mode, variant, entries, console, i);
      var entry := entries[i];
      if entry.HasName() {
        var step := Resolve(svc, mode, variant, entry.name.value, lines);
        filesArray, missing := Record(step.0, filesArray, missing);
        ListsSnoc(outs, step.0);
        outs := outs + [step.0];
        lines := step.1;
      }
    }
    assert entries[..|entries|] == entries;
  }

  /** Appends an outcome to the list it belongs to. */
  method Record(o: Outcome, filesArray: seq<Pair>, missing: seq<Missing>)
    returns (filesArray': seq<Pair>, missing': seq<Missing>)
    ensures filesArray' == filesArray + (if o.Resolved? then [o.pair] else [])
    ensures missing' == missing + (if o.Unresolved? then [o.record] else [])
  {
    match o {
      case Resolved(_, p) =>
        filesArray', missing' := filesArray + [p], missing;
      case Unresolved(m) =>
        filesArray', missing' := filesArray, missing + [m];
    }
  }

  /** `main` on a mod list and a manifest template: the manifest to write,
      and the two lists it builds along the way. */
  method FillManifest(svc: Services, mode: Mode, variant: Prompts.Variant, entries: seq<Entry>,
                      console: seq<string>, template: Object)
    returns (manifestOut: Object, filesArray: seq<Pair>, missing: seq<Missing>)
    requires DistinctKeys(template)
    ensures filesArray == ResolvedPairs(Run(svc, mode, variant, entries, console).0)
    ensures missing == MissingRecords(Run(svc, mode, variant, entries, console).0)
    ensures |filesArray| + |missing| == |Names(entries)|
    ensures DistinctKeys(manifestOut)
    ensures Lookup(manifestOut, "files") == Some(EncodeFiles(filesArray))
    ensures DecodeFiles(EncodeFiles(filesArray)) == Some(filesArray)
    ensures forall k :: k != "files" ==> Lookup(manifestOut, k) == Lookup(template, k)
    ensures forall i :: 0 <= i < |template| && template[i].0 != "files" ==>
              Lookup(manifestOut, template[i].0) == Some(template[i].1)
    ensures Keys(manifestOut) == if "files" in Keys(template) then Keys(template) else Keys(template) + ["files"]
  {
    filesArray, missing := Collect(svc, mode, variant, entries, console);
    PartitionCounts(Run(svc, mode, variant, entries, console).0);
    DecodeEncodeFiles(filesArray);
    var files := EncodeFiles(filesArray);
    SetDistinct(template, "files", files);
    SetLookupSame(template, "files", files);
    forall k | k != "files"
      ensures Lookup(Set(template, "files", files), k) == Lookup(template, k)
    {
      SetLookupOther(template, "files", files, k);
    }
    forall i | 0 <= i < |template| && template[i].0 != "files"
      ensures Lookup(template, template[i].0) == Some(template[i].1)
    {
      LookupDistinct(template, i);
    }
    manifestOut := Set(template, "files", files);
  }

  // ---------------------------------------------------------------------------
  // Properties of a run

  /** Interactively, with hits, a blank line or the skip key at the project
      prompt records `skipped_by_user` and consumes just that line. */
  lemma InteractiveSkipKey(svc: Services, variant: Prompts.Variant, name: string, console: seq<string>)
    requires svc.search(name).Success? && |svc.search(name).value| > 0
    requires |console| > 0
    requires Text.Strip(console[0]) == "" || Text.Strip(console[0]) == "s" || Text.Strip(console[0]) == "S"
    ensures Resolve(svc, Interactive, variant, name, console) == (Unresolved(Missing(name, SkippedByUser)), console[1..])
  {
    Prompts.ProjectBlankOrSkipKey(svc.similar, name, svc.search(name).value, console[0]);
  }

  /** Interactively, a line that reads as the number `k` at the project prompt
      goes on to the files of the `k`-th ranked hit when `k` is shown, and of
      the manual record with id `k` otherwise. */
  lemma InteractiveNumberTyped(svc: Services, variant: Prompts.Variant, name: string, console: seq<string>, k: nat)
    requires svc.search(name).Success? && |svc.search(name).value| > 0
    requires |console| > 0 && Prompts.ReadReply(console[0]) == Success(Prompts.Number(k))
    ensures var hits := svc.search(name).value;
            var id := if 1 <= k <= Prompts.ShownCount(|hits|)
                      then Ranking.PickBestMatch(svc.similar, name, hits)[k - 1].id
                      else k;
            Resolve(svc, Interactive, variant, name, console) == ResolveFiles(svc, variant, name, id, console[1..])
  {
    Prompts.ProjectNumberSelects(svc.similar, name, svc.search(name).value, console[0], k);
  }

  /** Without prompts the run reads no console line and never reports an
      entry as skipped by the user. */
  lemma AutomaticNeverSkips(svc: Services, variant: Prompts.Variant, entries: seq<Entry>, console: seq<string>)
    ensures Run(svc, Automatic, variant, entries, console).1 == console
    ensures forall m :: m in MissingRecords(Run(svc, Automatic, variant, entries, console).0) ==> m.reason != SkippedByUser
  {
    var outs := Run(svc, Automatic, variant, entries, console).0;
    forall m | m in MissingRecords(outs)
      ensures m.reason != SkippedByUser
    {
      var o :| o in outs && o.Unresolved? && o.record == m;
      assert Sound(svc, Automatic, variant, o);
    }
  }

  /** In automatic mode each pair names the top-ranked search hit and a file
      from that project's listing. */
  lemma AutomaticPairsAreTopHits(svc: Services, variant: Prompts.Variant, entries: seq<Entry>, console: seq<string>)
    ensures forall o :: o in Run(svc, Automatic, variant, entries, console).0 && o.Resolved? ==>
              && svc.search(o.name).Success?
              && |svc.search(o.name).value| > 0
              && o.pair.projectID == Top(svc, o.name, svc.search(o.name).value).id
              && svc.listFiles(o.pair.projectID).Success?
              && |svc.listFiles(o.pair.projectID).value| > 0
              && o.pair.fileID == AutoPick(variant, svc.listFiles(o.pair.projectID).value).value.id
              && FromListing(svc, o.pair)
  {
    var outs := Run(svc, Automatic, variant, entries, console).0;
    forall o | o in outs && o.Resolved?
      ensures svc.search(o.name).Success? && |svc.search(o.name).value| > 0
      ensures o.pair.projectID == Top(svc, o.name, svc.search(o.name).value).id
      ensures svc.listFiles(o.pair.projectID).Success? && |svc.listFiles(o.pair.projectID).value| > 0
      ensures o.pair.fileID == AutoPick(variant, svc.listFiles(o.pair.projectID).value).value.id
      ensures FromListing(svc, o.pair)
    {
      assert Sound(svc, Automatic, variant, o);
    }
  }

  /** With the corrected recording, every pair written to `files` in either
      mode names a file that its project's listing returned. */
  lemma PairsFromListings(svc: Services, mode: Mode, entries: seq<Entry>, console: seq<string>)
    ensures forall p :: p in ResolvedPairs(Run(svc, mode, Prompts.Corrected, entries, console).0) ==> FromListing(svc, p)
  {
    var outs := Run(svc, mode, Prompts.Corrected, entries, console).0;
    forall p | p in ResolvedPairs(outs)
      ensures FromListing(svc, p)
    {
      var o :| o in outs && o.Resolved? && o.pair == p;
      assert Sound(svc, mode, Prompts.Corrected, o);
    }
  }

  /** The console session of the re-entered id: `0` at the project prompt
      (not a shown index, so taken as project id 0), then `1234` when asked
      for a project id, then `1` at the file prompt. */
  function ReentrySession(): seq<string> {
    [Text.DecimalString(0), Text.DecimalString(1234), Text.DecimalString(1)]
  }

  /** The re-entry session's first line chooses project id 0. */
  lemma ReentryProject(svc: Services, name: string)
    requires svc.search(name).Success? && |svc.search(name).value| > 0
    ensures Prompts.AskProject(svc.similar, name, svc.search(name).value, ReentrySession())
            == (Success(Some(Manual(0))), ReentrySession()[1..])
  {
    Prompts.ProjectIdTyped(svc.similar, name, svc.search(name).value, 0);
  }

  /** Its second line is read in place of the falsy id. */
  lemma ReentryFetch()
    ensures FetchId(0, ReentrySession()[1..]) == (Success(1234), ReentrySession()[2..])
  {
    var later := ReentrySession()[1..];
    assert later[0] == Text.DecimalString(1234);
    Text.StripOfDigits(Text.DecimalString(1234));
    Text.ParseIntDecimal(1234);
  }

  /** A one-file listing is shown with that file as the only candidate. */
  lemma SingleFileShown(f: File)
    requires f.fileDate.Present?
    ensures Prompts.FilePromptShown([f])
    ensures Prompts.FileCandidates([f]).value[0] == f
  {
    var files := [f];
    assert forall g :: g in Prompts.Shortlist(files) ==> g == f;
    assert Prompts.FileCandidates(files).Success?;
    assert Prompts.FileCandidates(files).value[0] in files;
  }

  /** Its third line picks the only listed file. */
  lemma ReentryFile(variant: Prompts.Variant, f: File)
    requires f.fileDate.Present?
    ensures Prompts.AskFile(variant, [f], ReentrySession()[2..]) == (Success(Some(f)), [])
  {
    var line := Text.DecimalString(1);
    assert ReentrySession()[2..] == [line];
    SingleFileShown(f);
    Prompts.FileIndexSelects(variant, [f], 1);
    assert Prompts.PresentFiles(variant, [f], line) == Success(Some(f));
    AskFileShown(variant, [f], line);
  }

  /** A shown file prompt reads its one line. */
  lemma AskFileShown(variant: Prompts.Variant, files: seq<File>, line: string)
    requires Prompts.FilePromptShown(files)
    ensures Prompts.AskFile(variant, files, [line]) == (Prompts.PresentFiles(variant, files, line), [])
  {
    var console := [line];
    assert console[0] == line && console[1..] == [];
  }

  /** The steps of the re-entry session shared by both variants. */
  lemma ReentrySteps(svc: Services, variant: Prompts.Variant, name: string, f: File)
    requires svc.listFiles(1234) == Success([f])
    requires f.fileDate.Present?
    ensures ResolveFiles(svc, variant, name, 0, ReentrySession()[1..])
            == (Resolved(name, Pair(if variant == Prompts.AsWritten then 0 else 1234, f.id)), [])
  {
    ReentryFetch();
    ReentryFile(variant, f);
  }

  /** As written, the id typed at the re-prompt lists the files but is not
      what gets recorded: the pair carries project id 0, whose listing does
      not hold the chosen file. */
  lemma ReenteredIdIsLost(svc: Services, name: string, f: File)
    requires svc.search(name).Success? && |svc.search(name).value| > 0
    requires svc.listFiles(1234) == Success([f])
    requires svc.listFiles(0) == Success([])
    requires f.fileDate.Present?
    ensures Resolve(svc, Interactive, Prompts.AsWritten, name, ReentrySession()).0 == Resolved(name, Pair(0, f.id))
    ensures !FromListing(svc, Pair(0, f.id))
  {
    ReentryProject(svc, name);
    ReentrySteps(svc, Prompts.AsWritten, name, f);
  }

  /** Corrected, the same session records the project the file was listed for. */
  lemma ReenteredIdIsKept(svc: Services, name: string, f: File)
    requires svc.search(name).Success? && |svc.search(name).value| > 0
    requires svc.listFiles(1234) == Success([f])
    requires f.fileDate.Present?
    ensures Resolve(svc, Interactive, Prompts.Corrected, name, ReentrySession()).0 == Resolved(name, Pair(1234, f.id))
    ensures FromListing(svc, Pair(1234, f.id))
  {
    assert FromListing(svc, Pair(1234, f.id)) by {
      assert f in svc.listFiles(1234).value;
    }
    ReentryProject(svc, name);
    ReentrySteps(svc, Prompts.Corrected, name, f);
  }
}

=== FILE: prompts.dfy ===
/** The two console decisions of the interactive mode
    (`present_candidates_interactive`, `present_files_interactive`), with the
    typed line passed in instead of read from the console. */
module Prompts {
  import opened Wrappers
  import opened Records
  import Text
  import StableSort
  import Ranking
  import AutoFile

  /** How many ranked items a prompt lists with an index: `len(items[:6])`. */
  function ShownCount(n: nat): (r: nat)
    ensures r <= n && r <= 6
    ensures r == n || r == 6
  {
    if n < 6 then n else 6
  }

  /** What a typed line means once stripped: nothing, the skip key (`s` or `S`),
      a number (`isdigit()` holds), or any other word. */
  datatype Reply = Blank | SkipKey | Number(n: nat) | Word(text: string)

  /** Both prompts test the skip key, then `isdigit()`, then call `int()` on
      a digit string; that call raises when the line has more digits than
      `int()` converts, and nothing in either prompt catches it. */
  function ReadReply(line: string): (r: Result<Reply>)
    ensures r.Failure? <==> Text.AllDigits(Text.Strip(line)) && |Text.Strip(line)| > Text.MaxStrDigits
    ensures r.Failure? ==> r.detail == Text.DigitLimitError(|Text.Strip(line)|)
    ensures r == Success(Blank) <==> Text.Strip(line) == ""
    ensures Text.Strip(line) == "s" || Text.Strip(line) == "S" ==> r == Success(SkipKey)
    ensures Text.AllDigits(Text.Strip(line)) && |Text.Strip(line)| <= Text.MaxStrDigits ==>
              r == Success(Number(Text.DigitsValue(Text.Strip(line))))
  {
    var c := Text.Strip(line);
    if c == "" then Success(Blank)
    else if c == "s" || c == "S" then Success(SkipKey)
    else if Text.AllDigits(c) then
      if |c| > Text.MaxStrDigits then Failure(Text.DigitLimitError(|c|))
      else Success(Number(Text.DigitsValue(c)))
    else Success(Word(c))
  }

  /** A line read as a number holds what `int()` makes of it. */
  lemma NumberIsInt(line: string)
    requires ReadReply(line).Success? && ReadReply(line).value.Number?
    ensures Text.ParseInt(line) == Some(ReadReply(line).value.n as int)
  {
  }

  /** A line that is neither blank, nor the skip key, nor digits reads as
      the word it strips to. */
  lemma ReadWord(line: string)
    requires Text.Strip(line) != "" && Text.Strip(line) != "s" && Text.Strip(line) != "S"
    requires !Text.AllDigits(Text.Strip(line))
    ensures ReadReply(line) == Success(Word(Text.Strip(line)))
  {
  }

  /** The typed line is stripped before it is read: padded with blanks,
      "03" still reads as the number 3 and "s" as the skip key. */
  lemma PaddedLinesRead()
    ensures ReadReply(" 03 ") == Success(Number(3))
    ensures ReadReply(" s ") == Success(SkipKey)
  {
    Text.StripPadded("03");
    assert " 03 " == " " + "03" + " ";
    assert Text.DigitsValue("03") == 3 by {
      assert "03"[..1] == "0" && "0"[..0] == [];
    }
    Text.StripPadded("s");
    assert " s " == " " + "s" + " ";
  }

  /** Typing the decimal form of `n` reads as that number, or raises when it
      is too long for `int()`. */
  lemma ReadNumber(n: nat)
    ensures ReadReply(Text.DecimalString(n))
            == if |Text.DecimalString(n)| <= Text.MaxStrDigits then Success(Number(n))
               else Failure(Text.DigitLimitError(|Text.DecimalString(n)|))
  {
    Text.StripOfDigits(Text.DecimalString(n));
  }

  /** A one-digit index is well within what `int()` converts. */
  lemma ReadIndex(k: nat)
    requires k < 10
    ensures ReadReply(Text.DecimalString(k)) == Success(Number(k))
  {
    assert |Text.DecimalString(k)| == 1;
    ReadNumber(k);
  }

  /** The skip key, in either case, reads as the skip key. */
  lemma ReadSkipKey(line: string)
    requires line == "s" || line == "S"
    ensures ReadReply(line) == Success(SkipKey)
  {
    assert |line| == 1;
    Text.StripOfTrimmed(line);
  }

  /** A minus sign followed by digits reads as a word, not a number. */
  lemma ReadNegative(line: string, n: nat)
    requires line == "-" + Text.DecimalString(n)
    ensures ReadReply(line) == Success(Word(line))
  {
    var d := Text.DecimalString(n);
    assert line[|line| - 1] == d[|d| - 1];
    assert line[0] == '-';
    Text.StripOfTrimmed(line);
    assert !Text.IsDigit(line[0]);
  }

  /** Which reading of the two decisions flagged in README's Findings to use. */
  datatype Variant = AsWritten | Corrected

  // ---------------------------------------------------------------------------
  // Project prompt

  /** The project decision on the ranked list: skip on a blank line or the
      skip key; a listed index picks that candidate; any other number, or a
      word `int()` accepts (such as "-3"), becomes a manual project id; any
      other word skips. */
  function DecideProject(ranked: seq<Project>, reply: Reply): (r: Option<Project>)
    ensures reply.Blank? || reply.SkipKey? ==> r.None?
    ensures r.Some? ==> r.value in ranked[..ShownCount(|ranked|)] || r.value == Manual(r.value.id)
    ensures reply.Number? && 1 <= reply.n <= ShownCount(|ranked|) ==> r == Some(ranked[reply.n - 1])
    ensures reply.Number? && !(1 <= reply.n <= ShownCount(|ranked|)) ==> r == Some(Manual(reply.n))
  {
    match reply
    case Blank => None
    case SkipKey => None
    case Number(k) =>
      if 1 <= k <= ShownCount(|ranked|) then Some(ranked[k - 1]) else Some(Manual(k))
    case Word(c) =>
      match Text.ParseInt(c)
      case Some(pid) => Some(Manual(pid))
      case None => None
  }

  /** `present_candidates_interactive(name, candidates)` given the typed
      line; a digit string too long for `int()` raises out of it. */
  function PresentCandidates(similar: Ranking.Similarity, name: string, candidates: seq<Project>, line: string)
    : (r: Result<Option<Project>>)
    ensures |candidates| == 0 ==> r == Success(None)
    ensures r.Failure? <==> |candidates| > 0 && ReadReply(line).Failure?
    ensures r.Success? && r.value.Some? ==> r.value.value in candidates || r.value.value == Manual(r.value.value.id)
  {
    if |candidates| == 0 then Success(None)
    else
      var reply :- ReadReply(line);
      var ranked := Ranking.PickBestMatch(similar, name, candidates);
      var r := DecideProject(ranked, reply);
      assert r.Some? && r.value in ranked[..ShownCount(|ranked|)] ==> r.value in multiset(ranked);
      Success(r)
  }

  /** With candidates present, a line that reads decides on the ranking. */
  lemma PresentCandidatesDecides(similar: Ranking.Similarity, name: string, candidates: seq<Project>, line: string)
    requires |candidates| > 0
    ensures |Ranking.PickBestMatch(similar, name, candidates)| == |candidates|
    ensures ReadReply(line).Success? ==>
              PresentCandidates(similar, name, candidates, line)
              == Success(DecideProject(Ranking.PickBestMatch(similar, name, candidates), ReadReply(line).value))
  {
    var ranked := Ranking.PickBestMatch(similar, name, candidates);
    assert |ranked| == |multiset(ranked)| == |multiset(candidates)|;
  }

  /** Any line that reads as the number `k` (surrounding whitespace and
      leading zeros allowed): a shown index selects that ranked candidate,
      any other number asks for that project id. */
  lemma ProjectNumberSelects(similar: Ranking.Similarity, name: string, candidates: seq<Project>, line: string, k: nat)
    requires |candidates| > 0
    requires ReadReply(line) == Success(Number(k))
    ensures PresentCandidates(similar, name, candidates, line)
            == Success(Some(if 1 <= k <= ShownCount(|candidates|)
                            then Ranking.PickBestMatch(similar, name, candidates)[k - 1]
                            else Manual(k)))
  {
    PresentCandidatesDecides(similar, name, candidates, line);
  }

  /** Typing the index shown next to a candidate selects that candidate. */
  lemma ProjectIndexSelects(similar: Ranking.Similarity, name: string, candidates: seq<Project>, k: nat)
    requires 1 <= k <= ShownCount(|candidates|)
    ensures PresentCandidates(similar, name, candidates, Text.DecimalString(k))
            == Success(Some(Ranking.PickBestMatch(similar, name, candidates)[k - 1]))
  {
    ReadIndex(k);
    ProjectNumberSelects(similar, name, candidates, Text.DecimalString(k), k);
  }

  /** Typing a number that is not a shown index asks for that project id;
      one too long for `int()` raises. */
  lemma ProjectIdTyped(similar: Ranking.Similarity, name: string, candidates: seq<Project>, id: nat)
    requires |candidates| > 0
    requires !(1 <= id <= ShownCount(|candidates|))
    ensures PresentCandidates(similar, name, candidates, Text.DecimalString(id))
            == if |Text.DecimalString(id)| <= Text.MaxStrDigits then Success(Some(Manual(id)))
               else Failure(Text.DigitLimitError(|Text.DecimalString(id)|))
  {
    ReadNumber(id);
    if |Text.DecimalString(id)| <= Text.MaxStrDigits {
      ProjectNumberSelects(similar, name, candidates, Text.DecimalString(id), id);
    } else {
      ProjectOverlongRaises(similar, name, candidates, Text.DecimalString(id));
    }
  }

  /** Any digit string longer than `int()` converts raises out of the
      project prompt, whether or not it would name a shown index. */
  lemma ProjectOverlongRaises(similar: Ranking.Similarity, name: string, candidates: seq<Project>, line: string)
    requires |candidates| > 0
    requires Text.AllDigits(Text.Strip(line)) && |Text.Strip(line)| > Text.MaxStrDigits
    ensures PresentCandidates(similar, name, candidates, line) == Failure(Text.DigitLimitError(|Text.Strip(line)|))
  {
  }

  /** A negative number is not a digit string, but `int()` accepts it, so it
      becomes a manual project id too; when `int()` rejects it as too long,
      the prompt catches that and skips. */
  lemma ProjectNegativeIdTyped(similar: Ranking.Similarity, name: string, candidates: seq<Project>, n: nat)
    requires |candidates| > 0
    ensures PresentCandidates(similar, name, candidates, "-" + Text.DecimalString(n))
            == Success(if |Text.DecimalString(n)| <= Text.MaxStrDigits then Some(Manual(-(n as int))) else None)
  {
    var line := "-" + Text.DecimalString(n);
    ReadNegative(line, n);
    ProjectWordTyped(similar, name, candidates, line, line);
    Text.ParseIntNegative(n);
  }

  /** A word is handed to `int()`: a manual id if it converts, a skip if not. */
  lemma ProjectWordTyped(similar: Ranking.Similarity, name: string, candidates: seq<Project>, line: string, c: string)
    requires |candidates| > 0
    requires ReadReply(line) == Success(Word(c))
    ensures PresentCandidates(similar, name, candidates, line)
            == Success(if Text.ParseInt(c).Some? then Some(Manual(Text.ParseInt(c).value)) else None)
  {
    PresentCandidatesDecides(similar, name, candidates, line);
    DecideWord(Ranking.PickBestMatch(similar, name, candidates), c);
  }

  lemma DecideWord(ranked: seq<Project>, c: string)
    ensures DecideProject(ranked, Word(c)) == if Text.ParseInt(c).Some? then Some(Manual(Text.ParseInt(c).value)) else None
  {
  }

  /** An empty line and the skip key both skip. */
  lemma ProjectBlankOrSkipKey(similar: Ranking.Similarity, name: string, candidates: seq<Project>, line: string)
    requires Text.Strip(line) == "" || Text.Strip(line) == "s" || Text.Strip(line) == "S"
    ensures PresentCandidates(similar, name, candidates, line) == Success(None)
  {
    if |candidates| > 0 {
      PresentCandidatesDecides(similar, name, candidates, line);
    }
  }

  /** A line that is neither a number, nor a word `int()` accepts, skips. */
  lemma ProjectGarbageSkips(similar: Ranking.Similarity, name: string, candidates: seq<Project>, line: string)
    requires !Text.AllDigits(Text.Strip(line))
    requires Text.ParseInt(Text.Strip(line)).None?
    ensures PresentCandidates(similar, name, candidates, line) == Success(None)
  {
    var c := Text.Strip(line);
    if |candidates| > 0 {
      if c == "" || c == "s" || c == "S" {
        ProjectBlankOrSkipKey(similar, name, candidates, line);
      } else {
        ReadWord(line);
        ProjectWordTyped(similar, name, candidates, line, c);
      }
    }
  }

  // ---------------------------------------------------------------------------
  // File prompt: the candidate list

  /** A file's game versions or file name mention the target version. */
  function Mentions(f: File): (r: bool)
    ensures r <==> || (exists i :: 0 <= i < |AutoFile.Versions(f)| && Text.Occurs(AutoFile.Target, AutoFile.Versions(f)[i]))
                   || Text.Occurs(AutoFile.Target, AutoFile.FileName(f))
    ensures r <==> AutoFile.Score(f) > 0
  {
    AutoFile.InVersions(f) || AutoFile.InFileName(f)
  }

  /** The files that mention the target, in listing order. */
  function Preferred(files: seq<File>): (r: seq<File>)
    ensures forall f :: multiset(r)[f] == if Mentions(f) then multiset(files)[f] else 0
  {
    if |files| == 0 then []
    else
      assert files == [files[0]] + files[1..];
      (if Mentions(files[0]) then [files[0]] else []) + Preferred(files[1..])
  }

  /** The filter keeps the listing order and each file's multiplicity: the
      preferred files of a concatenation are those of its parts,
      concatenated, and a single file is kept exactly when it mentions the
      target. */
  lemma {:induction false} PreferredAppend(a: seq<File>, b: seq<File>)
    ensures Preferred(a + b) == Preferred(a) + Preferred(b)
  {
    if |a| == 0 {
      assert a + b == b;
    } else {
      assert (a + b)[0] == a[0];
      assert (a + b)[1..] == a[1..] + b;
      PreferredAppend(a[1..], b);
    }
  }

  /** A single file is preferred exactly when it mentions the target. */
  lemma PreferredOne(f: File)
    ensures Preferred([f]) == if Mentions(f) then [f] else []
  {
    assert [f][1..] == [];
  }

  /** The files the prompt considers: those that mention the target or, when
      none does, the whole listing. */
  function Shortlist(files: seq<File>): (r: seq<File>)
    ensures |files| > 0 ==> |r| > 0
    ensures forall f :: f in r ==> f in files
    ensures (exists f :: f in files && Mentions(f)) ==> forall f :: f in r <==> f in files && Mentions(f)
    ensures (exists f :: f in files && Mentions(f)) ==> r == Preferred(files)
    ensures (forall f :: f in files ==> !Mentions(f)) ==> r == files
  {
    var p := Preferred(files);
    if |p| == 0 then
      assert forall f :: f in files ==> multiset(p)[f] == 0 && multiset(files)[f] > 0;
      files
    else
      assert p[0] in multiset(p);
      assert forall f :: f in p ==> multiset(p)[f] > 0;
      p
  }

  /** The message of the `TypeError` Python raises when the date sort meets a
      `null` date. */
  const DateCompareError: string := "'<' not supported between instances of 'NoneType' and 'str'"

  /** Later dates first: `sort(..., reverse=True)` on the date strings. */
  predicate Later(a: string, b: string) {
    Text.Less(b, a)
  }

  lemma LaterIsStrictTotalOrder()
    ensures StableSort.StrictTotalOrder(Later)
  {
    forall a: string
      ensures !Later(a, a)
    {
      Text.LessIrreflexive(a);
    }
    forall a: string, b: string, c: string | Later(a, b) && Later(b, c)
      ensures Later(a, c)
    {
      Text.LessTransitive(c, b, a);
    }
    forall a: string, b: string
      ensures a == b || Later(a, b) || Later(b, a)
    {
      Text.LessTotal(a, b);
    }
  }

  /** `candidates.sort(key=lambda x: x.get("fileDate", ""), reverse=True)`.
      A missing date sorts as "", but an explicit `null` date is `None`,
      which Python cannot compare; with two or more files some comparison
      involves it and the sort raises. */
  function SortByDate(cands: seq<File>): (r: Result<seq<File>>)
    ensures r.Failure? <==> |cands| >= 2 && exists f :: f in cands && f.fileDate.Null?
    ensures r.Success? ==> multiset(r.value) == multiset(cands)
    ensures r.Success? ==> forall i, j :: 0 <= i < j < |r.value| ==>
                             !Text.Less(AutoFile.Date(r.value[i]), AutoFile.Date(r.value[j]))
    ensures r.Success? ==> forall d :: StableSort.KeyClass(r.value, AutoFile.Date, d)
                                       == StableSort.KeyClass(cands, AutoFile.Date, d)
  {
    if |cands| >= 2 && exists f :: f in cands && f.fileDate.Null? then
      Failure(DateCompareError)
    else
      LaterIsStrictTotalOrder();
      StableSort.SortSorted(cands, AutoFile.Date, Later);
      forall d
        ensures StableSort.KeyClass(StableSort.Sort(cands, AutoFile.Date, Later), AutoFile.Date, d)
                == StableSort.KeyClass(cands, AutoFile.Date, d)
      {
        StableSort.SortStable(cands, AutoFile.Date, Later, d);
      }
      Success(StableSort.Sort(cands, AutoFile.Date, Later))
  }

  /** The candidate list the file prompt shows: the shortlist, latest date
      first, files with equal dates in listing order. */
  function FileCandidates(files: seq<File>): (r: Result<seq<File>>)
    ensures r.Failure? <==> |Shortlist(files)| >= 2 && exists f :: f in Shortlist(files) && f.fileDate.Null?
    ensures r.Success? ==> multiset(r.value) == multiset(Shortlist(files))
    ensures r.Success? && |files| > 0 ==> |r.value| > 0
    ensures r.Success? ==> forall f :: f in r.value ==> f in files
    ensures r.Success? ==> forall i, j :: 0 <= i < j < |r.value| ==>
                             !Text.Less(AutoFile.Date(r.value[i]), AutoFile.Date(r.value[j]))
    ensures r.Success? ==> forall d :: StableSort.KeyClass(r.value, AutoFile.Date, d)
                                       == StableSort.KeyClass(Shortlist(files), AutoFile.Date, d)
  {
    var r := SortByDate(Shortlist(files));
    assert r.Success? ==> |r.value| == |multiset(r.value)| == |Shortlist(files)|;
    assert r.Success? ==> forall f :: f in r.value ==> f in multiset(Shortlist(files));
    r
  }

  // ---------------------------------------------------------------------------
  // File prompt: the decision

  /** The first file with the given id in the list the manual-id loop walks. */
  function FindById(files: seq<File>, id: int): (r: Option<File>)
    ensures r.None? <==> forall f :: f in files ==> f.id != id
    ensures r.Some? ==> exists i :: 0 <= i < |files| && files[i] == r.value && r.value.id == id
                                    && forall j :: 0 <= j < i ==> files[j].id != id
  {
    if |files| == 0 then None
    else if files[0].id == id then Some(files[0])
    else
      var r := FindById(files[1..], id);
      assert forall f :: f in files[1..] ==> f in files;
      assert forall f :: f in files && f != files[0] ==> f in files[1..];
      if r.Some? then
        var i :| 0 <= i < |files[1..]| && files[1..][i] == r.value && r.value.id == id
                 && forall j :: 0 <= j < i ==> files[1..][j].id != id;
        assert files[i + 1] == r.value;
        r
      else r
  }

  /** The list the manual-id loop walks. It is the listing `files`; but when
      no file mentions the target, `candidates = files` binds both names to
      the same list, so the in-place date sort has already reordered it. */
  function IdScanList(files: seq<File>, cands: seq<File>): seq<File> {
    if |Preferred(files)| == 0 then cands else files
  }

  /** The loop walks the listing as fetched when some file mentions the
      target, and the date-sorted listing when none does. */
  lemma IdScanListCases(files: seq<File>)
    requires FilePromptShown(files)
    ensures (exists f :: f in files && Mentions(f)) ==> IdScanList(files, FileCandidates(files).value) == files
    ensures (forall f :: f in files ==> !Mentions(f)) ==>
              && IdScanList(files, FileCandidates(files).value) == FileCandidates(files).value
              && multiset(FileCandidates(files).value) == multiset(files)
  {
    var p := Preferred(files);
    if exists f :: f in files && Mentions(f) {
      var f :| f in files && Mentions(f);
      assert multiset(p)[f] == multiset(files)[f] > 0;
    }
  }

  /** The file decision as written, on a non-empty candidate list: a listed
      index picks that candidate; any other number is looked up as a file id
      in `scanned`, the list the manual-id loop walks; everything else,
      including the skip key, picks the first candidate. */
  function DecideFile(scanned: seq<File>, cands: seq<File>, reply: Reply): (r: Option<File>)
    requires |cands| > 0
    ensures !reply.Number? ==> r == Some(cands[0])
    ensures r.Some? ==> r.value in cands[..ShownCount(|cands|)] || (reply.Number? && r.value in scanned && r.value.id == reply.n)
    ensures r.None? ==> reply.Number? && forall f :: f in scanned ==> f.id != reply.n
  {
    match reply
    case Number(k) =>
      if 1 <= k <= ShownCount(|cands|) then Some(cands[k - 1]) else FindById(scanned, k)
    case _ => Some(cands[0])
  }

  /** The file decision the prompt text promises: the skip key skips. */
  function DecideFileIntended(scanned: seq<File>, cands: seq<File>, reply: Reply): (r: Option<File>)
    requires |cands| > 0
    ensures reply.SkipKey? ==> r.None?
    ensures !reply.SkipKey? ==> r == DecideFile(scanned, cands, reply)
  {
    if reply.SkipKey? then None else DecideFile(scanned, cands, reply)
  }

  /** The decision of the given variant on a reply. */
  function Decide(variant: Variant, scanned: seq<File>, cands: seq<File>, reply: Reply): (r: Option<File>)
    requires |cands| > 0
    ensures r.Some? ==> r.value in cands || r.value in scanned
  {
    assert forall i :: 0 <= i < ShownCount(|cands|) ==> cands[..ShownCount(|cands|)][i] in cands;
    match variant
    case AsWritten => DecideFile(scanned, cands, reply)
    case Corrected => DecideFileIntended(scanned, cands, reply)
  }

  /** `present_files_interactive` after the listing is fetched: no file for
      an empty listing, an error when the date sort raises or the typed
      number is too long for `int()`, otherwise the decision on the typed
      line. */
  function PresentFiles(variant: Variant, files: seq<File>, line: string): (r: Result<Option<File>>)
    ensures |files| == 0 ==> r == Success(None)
    ensures r.Failure? <==> |files| > 0 && (FileCandidates(files).Failure? || ReadReply(line).Failure?)
    ensures r.Success? && r.value.Some? ==> r.value.value in files
  {
    if |files| == 0 then Success(None)
    else
      var cands :- FileCandidates(files);
      var reply :- ReadReply(line);
      var scanned := IdScanList(files, cands);
      assert forall f :: f in scanned ==> f in files;
      Success(Decide(variant, scanned, cands, reply))
  }

  /** `str(e)` of the `EOFError` that `input()` raises once the console is exhausted. */
  const EofError: string := "EOF when reading a line"

  /** The project prompt on a console: one line is read when there are
      candidates; running out of lines raises. */
  function AskProject(similar: Ranking.Similarity, name: string, candidates: seq<Project>, console: seq<string>)
    : (r: (Result<Option<Project>>, seq<string>))
    ensures r.1 == console || (|console| > 0 && r.1 == console[1..])
    ensures r.0.Failure? <==> |candidates| > 0 && (|console| == 0 || ReadReply(console[0]).Failure?)
    ensures r.0.Success? && r.0.value.Some? ==> r.0.value.value in candidates || r.0.value.value == Manual(r.0.value.value.id)
    ensures |candidates| == 0 ==> r == (Success(None), console)
    ensures |candidates| > 0 && |console| == 0 ==> r == (Failure(EofError), console)
    ensures |candidates| > 0 && |console| > 0 ==>
              r == (PresentCandidates(similar, name, candidates, console[0]), console[1..])
  {
    if |candidates| == 0 then (Success(None), console)
    else if |console| == 0 then (Failure(EofError), console)
    else (PresentCandidates(similar, name, candidates, console[0]), console[1..])
  }

  /** The file prompt on a console: a line is read only when the prompt is
      shown; running out of lines raises. */
  function AskFile(variant: Variant, files: seq<File>, console: seq<string>)
    : (r: (Result<Option<File>>, seq<string>))
    ensures r.1 == console || (|console| > 0 && r.1 == console[1..])
    ensures |files| == 0 ==> r == (Success(None), console)
    ensures r.0.Success? && r.0.value.Some? ==> r.0.value.value in files
    ensures !FilePromptShown(files) ==> r.1 == console
    ensures |files| > 0 && FileCandidates(files).Failure? ==> r.0 == Failure(FileCandidates(files).detail)
    ensures FilePromptShown(files) && |console| == 0 ==> r == (Failure(EofError), console)
    ensures FilePromptShown(files) && |console| > 0 ==> r == (PresentFiles(variant, files, console[0]), console[1..])
  {
    if !FilePromptShown(files) then (PresentFiles(variant, files, ""), console)
    else if |console| == 0 then (Failure(EofError), console)
    else (PresentFiles(variant, files, console[0]), console[1..])
  }

  /** The prompt is shown (and a line read) exactly when the listing is
      non-empty and the date sort succeeds. */
  predicate FilePromptShown(files: seq<File>) {
    |files| > 0 && FileCandidates(files).Success?
  }

  /** Once the prompt is shown, a line that reads alone decides. */
  lemma PresentFilesDecides(variant: Variant, files: seq<File>, line: string)
    requires FilePromptShown(files)
    ensures |FileCandidates(files).value| > 0
    ensures ReadReply(line).Success? ==>
              PresentFiles(variant, files, line)
              == Success(Decide(variant, IdScanList(files, FileCandidates(files).value),
                                FileCandidates(files).value, ReadReply(line).value))
  {
  }

  /** Any line that reads as the number `k` (surrounding whitespace and
      leading zeros allowed): a shown index selects that candidate, any other
      number the first file with that id in the list the id loop walks. */
  lemma FileNumberSelects(variant: Variant, files: seq<File>, line: string, k: nat)
    requires FilePromptShown(files)
    requires ReadReply(line) == Success(Number(k))
    ensures PresentFiles(variant, files, line)
            == Success(if 1 <= k <= ShownCount(|FileCandidates(files).value|)
                       then Some(FileCandidates(files).value[k - 1])
                       else FindById(IdScanList(files, FileCandidates(files).value), k))
  {
    var cands := FileCandidates(files).value;
    PresentFilesDecides(variant, files, line);
    if 1 <= k <= ShownCount(|cands|) {
      DecideIndex(variant, IdScanList(files, cands), cands, k);
    } else {
      DecideOther(variant, IdScanList(files, cands), cands, k);
    }
  }

  /** Typing the index shown next to a file selects that file. */
  lemma FileIndexSelects(variant: Variant, files: seq<File>, k: nat)
    requires FilePromptShown(files)
    requires 1 <= k <= ShownCount(|FileCandidates(files).value|)
    ensures PresentFiles(variant, files, Text.DecimalString(k)) == Success(Some(FileCandidates(files).value[k - 1]))
  {
    ReadIndex(k);
    FileNumberSelects(variant, files, Text.DecimalString(k), k);
  }

  lemma DecideIndex(variant: Variant, scanned: seq<File>, cands: seq<File>, k: nat)
    requires 1 <= k <= ShownCount(|cands|)
    ensures Decide(variant, scanned, cands, Number(k)) == Some(cands[k - 1])
  {
  }

  /** Typing a number that is not a shown index picks the first file with
      that id in the list the manual-id loop walks, or none; a number too
      long for `int()` raises. */
  lemma FileIdTyped(variant: Variant, files: seq<File>, id: nat)
    requires FilePromptShown(files)
    requires !(1 <= id <= ShownCount(|FileCandidates(files).value|))
    ensures PresentFiles(variant, files, Text.DecimalString(id))
            == if |Text.DecimalString(id)| <= Text.MaxStrDigits
               then Success(FindById(IdScanList(files, FileCandidates(files).value), id))
               else Failure(Text.DigitLimitError(|Text.DecimalString(id)|))
  {
    var line := Text.DecimalString(id);
    ReadNumber(id);
    if |line| <= Text.MaxStrDigits {
      FileNumberSelects(variant, files, line, id);
    } else {
      FileOverlongRaises(variant, files, line);
    }
  }

  /** Any digit string longer than `int()` converts raises out of the file
      prompt. */
  lemma FileOverlongRaises(variant: Variant, files: seq<File>, line: string)
    requires FilePromptShown(files)
    requires Text.AllDigits(Text.Strip(line)) && |Text.Strip(line)| > Text.MaxStrDigits
    ensures PresentFiles(variant, files, line) == Failure(Text.DigitLimitError(|Text.Strip(line)|))
  {
  }

  lemma DecideOther(variant: Variant, scanned: seq<File>, cands: seq<File>, k: nat)
    requires |cands| > 0
    requires !(1 <= k <= ShownCount(|cands|))
    ensures Decide(variant, scanned, cands, Number(k)) == FindById(scanned, k)
  {
  }

  /** Two files of a listing that share id 5, neither mentioning the target,
      dated 2023 and 2024, listed in that order. */
  function SameIdListing(): seq<File> {
    [File(5, Present("a.jar"), Present([]), Present("2023"), Absent),
     File(5, Present("b.jar"), Present([]), Present("2024"), Absent)]
  }

  /** Typing their shared id returns the 2024 file: with no file mentioning
      the target, the id loop walks the date-sorted listing, not the listing
      as fetched. */
  lemma TypedIdFollowsDateOrder()
    ensures PresentFiles(AsWritten, SameIdListing(), "5") == Success(Some(SameIdListing()[1]))
  {
    var files := SameIdListing();
    var cands := [files[1], files[0]];
    SameIdCandidates();
    SameIdNoMention();
    IdScanListCases(files);
    assert IdScanList(files, cands) == cands;
    assert FindById(cands, 5) == Some(files[1]);
    FiveReads();
    PresentFilesDecides(AsWritten, files, "5");
    DecideOther(AsWritten, cands, cands, 5);
  }

  /** The typed line "5" reads as the number 5. */
  lemma FiveReads()
    ensures ReadReply("5") == Success(Number(5))
  {
    assert Text.DecimalString(5) == "5";
    ReadIndex(5);
  }

  /** Neither file mentions the target. */
  lemma SameIdNoMention()
    ensures forall f :: f in SameIdListing() ==> !Mentions(f)
  {
    assert !Text.Contains("a.jar", AutoFile.Target);
    assert !Text.Contains("b.jar", AutoFile.Target);
  }

  /** The prompt shows the 2024 file first. */
  lemma SameIdCandidates()
    ensures FileCandidates(SameIdListing()) == Success([SameIdListing()[1], SameIdListing()[0]])
  {
    var files := SameIdListing();
    SameIdNoMention();
    assert Shortlist(files) == files;
    SameIdSorted();
  }

  lemma SameIdSorted()
    ensures SortByDate(SameIdListing()) == Success([SameIdListing()[1], SameIdListing()[0]])
  {
    var files := SameIdListing();
    var older, newer := files[0], files[1];
    assert files[1..] == [newer] && [newer][1..] == [];
    assert forall f :: f in files ==> !f.fileDate.Null?;
    assert Later(AutoFile.Date(newer), AutoFile.Date(older)) by {
      assert Text.Less("2023", "2024");
    }
    assert StableSort.Sort([newer], AutoFile.Date, Later) == [newer];
    assert StableSort.Insert(older, [newer], AutoFile.Date, Later) == [newer, older];
  }

  /** A blank line, or any non-number such as "-3", picks the first
      candidate, where the project prompt would have skipped or asked for an
      id: the two prompts treat the same text differently. */
  lemma FileDefaultsToFirst(variant: Variant, files: seq<File>, line: string)
    requires FilePromptShown(files)
    requires ReadReply(line).Success?
    requires !ReadReply(line).value.Number? && !ReadReply(line).value.SkipKey?
    ensures PresentFiles(variant, files, line) == Success(Some(FileCandidates(files).value[0]))
  {
    PresentFilesDecides(variant, files, line);
  }

  /** As written, the skip key at the file prompt picks the first candidate. */
  lemma SkipKeySelectsFirst(files: seq<File>)
    requires FilePromptShown(files)
    ensures PresentFiles(AsWritten, files, "s") == Success(Some(FileCandidates(files).value[0]))
  {
    PresentFilesDecides(AsWritten, files, "s");
    ReadSkipKey("s");
  }

  /** Corrected, the skip key at the file prompt chooses no file. */
  lemma SkipKeySkips(files: seq<File>)
    requires FilePromptShown(files)
    ensures PresentFiles(Corrected, files, "s") == Success(None)
    ensures PresentFiles(Corrected, files, "S") == Success(None)
  {
    PresentFilesDecides(Corrected, files, "s");
    PresentFilesDecides(Corrected, files, "S");
    ReadSkipKey("s");
    ReadSkipKey("S");
  }
}

=== FILE: ranking.dfy ===
/** Project ranking (`pick_best_match`): search hits ordered by similarity to
    the requested name, most similar first, ties broken by more downloads,
    and full ties kept in the order the search returned them. */
module Ranking {
  import opened Records
  import StableSort

  /** The similarity metric (`difflib.SequenceMatcher(...).ratio()` on the
      lower-cased names) is a library heuristic; it stays an uninterpreted
      function and nothing is assumed about it. */
  type Similarity = (string, string) -> real

  function Score(similar: Similarity, name: string, c: Project): real {
    similar(name, c.name.Or(""))
  }

  /** `c.get("downloadCount", 0) or 0`: missing, `null` and 0 all read as 0. */
  function Downloads(c: Project): int {
    c.downloadCount.Or(0)
  }

  function RankKey(similar: Similarity, name: string): Project -> (real, int) {
    c => (Score(similar, name, c), Downloads(c))
  }

  /** Key `a` sorts strictly before key `b`: Python compares `(-score, -downloads)`
      ascending, so higher similarity first, then more downloads. */
  predicate Before(a: (real, int), b: (real, int)) {
    a.0 > b.0 || (a.0 == b.0 && a.1 > b.1)
  }

  lemma BeforeIsStrictTotalOrder()
    ensures StableSort.StrictTotalOrder(Before)
  {
  }

  /** `pick_best_match(name, candidates)`. */
  function PickBestMatch(similar: Similarity, name: string, candidates: seq<Project>): (r: seq<Project>)
    ensures multiset(r) == multiset(candidates)
    ensures forall i, j :: 0 <= i < j < |r| ==>
              && Score(similar, name, r[i]) >= Score(similar, name, r[j])
              && (Score(similar, name, r[i]) == Score(similar, name, r[j]) ==> Downloads(r[i]) >= Downloads(r[j]))
    ensures forall k :: StableSort.KeyClass(r, RankKey(similar, name), k)
                        == StableSort.KeyClass(candidates, RankKey(similar, name), k)
  {
    var key := RankKey(similar, name);
    BeforeIsStrictTotalOrder();
    StableSort.SortSorted(candidates, key, Before);
    forall k
      ensures StableSort.KeyClass(StableSort.Sort(candidates, key, Before), key, k)
              == StableSort.KeyClass(candidates, key, k)
    {
      StableSort.SortStable(candidates, key, Before, k);
    }
    StableSort.Sort(candidates, key, Before)
  }

  /** The head of the ranking is a best match: no candidate is more similar,
      and none equally similar has more downloads. */
  lemma TopIsBest(similar: Similarity, name: string, candidates: seq<Project>)
    requires |candidates| > 0
    ensures var top := PickBestMatch(similar, name, candidates)[0];
            && top in candidates
            && forall c :: c in candidates ==>
                 && Score(similar, name, c) <= Score(similar, name, top)
                 && (Score(similar, name, c) == Score(similar, name, top) ==> Downloads(c) <= Downloads(top))
  {
    var r := PickBestMatch(similar, name, candidates);
    assert |r| == |multiset(r)| == |candidates|;
    assert r[0] in multiset(candidates);
    forall c | c in candidates
      ensures Score(similar, name, c) <= Score(similar, name, r[0])
      ensures Score(similar, name, c) == Score(similar, name, r[0]) ==> Downloads(c) <= Downloads(r[0])
    {
      assert c in multiset(r);
      var j :| 0 <= j < |r| && r[j] == c;
    }
  }

  /** Python's sort is stable, so `PickBestMatch` is the only order with the
      contract above: any other sequence that is a permutation, ranked, and
      keeps full ties in search order is equal to it. */
  lemma RankingIsUnique(similar: Similarity, name: string, candidates: seq<Project>, other: seq<Project>)
    requires multiset(other) == multiset(candidates)
    requires forall i, j :: 0 <= i < j < |other| ==>
               && Score(similar, name, other[i]) >= Score(similar, name, other[j])
               && (Score(similar, name, other[i]) == Score(similar, name, other[j]) ==> Downloads(other[i]) >= Downloads(other[j]))
    requires forall k :: StableSort.KeyClass(other, RankKey(similar, name), k)
                         == StableSort.KeyClass(candidates, RankKey(similar, name), k)
    ensures other == PickBestMatch(similar, name, candidates)
  {
    BeforeIsStrictTotalOrder();
    StableSort.SortUnique(other, candidates, RankKey(similar, name), Before);
  }
}

=== FILE: records.dfy ===
/** The JSON records the selection logic reads: search hits (projects),
    file listings, and the entries of the mod list. A JSON object field can
    be missing, explicitly `null`, or hold a value, and the source reads
    fields both as `d.get(k) or default` and as `d.get(k, default)`, which
    treat those three cases differently. */
module Records {

  datatype Field<+T> = Absent | Null | Present(value: T) {

    /** `d.get(k) or default` for a field whose falsy value is `default`
        (`""`, `0`, `[]`): the value when present, otherwise `default`. */
    function Or(default: T): T {
      if Present? then value else default
    }
  }

  /** A search hit. `id` is an integer in every well-formed response. */
  datatype Project = Project(id: int, name: Field<string>, downloadCount: Field<int>)

  /** The record the project prompt builds for a typed id: `{"id": pid, "name": None}`. */
  function Manual(pid: int): Project {
    Project(pid, Null, Absent)
  }

  /** One entry of a project's file listing. */
  datatype File = File(
    id: int,
    fileName: Field<string>,
    gameVersions: Field<seq<string>>,
    fileDate: Field<string>,
    downloadCount: Field<int>)

  /** One entry of the input mod list. */
  datatype Entry = Entry(name: Field<string>) {

    /** `entry.get("name")` is truthy: present and non-empty. */
    predicate HasName() {
      name.Present? && |name.value| > 0
    }
  }
}

=== FILE: stable_sort.dfy ===
/** Python's `list.sort(key=...)`: a stable sort by a key under a strict total
    order, together with the "last maximal element" that `sort()` followed by
    `[-1]` selects. Python documents `list.sort` as stable (also with
    `reverse=True`, which sorts as if every comparison were flipped), and
    `SortUnique` shows that stability and order fix the result, so the
    insertion sort below returns exactly what `list.sort` returns. */
module StableSort {

  /** `lt` is a strict total order on keys: irreflexive, transitive, and any
      two different keys are comparable. */
  ghost predicate StrictTotalOrder<K(!new)>(lt: (K, K) -> bool) {
    && Irreflexive(lt)
    && (forall a, b, c :: lt(a, b) && lt(b, c) ==> lt(a, c))
    && (forall a, b :: a == b || lt(a, b) || lt(b, a))
  }

  ghost predicate Irreflexive<K(!new)>(lt: (K, K) -> bool) {
    forall a :: !lt(a, a)
  }

  /** No element's key is strictly below the key of an element before it. */
  ghost predicate Sorted<T, K>(s: seq<T>, key: T -> K, lt: (K, K) -> bool) {
    forall i, j :: 0 <= i < j < |s| ==> !lt(key(s[j]), key(s[i]))
  }

  /** The elements of `s` whose key is `k`, in their order in `s`. Two
      sequences with the same key classes order tied elements alike. */
  ghost function KeyClass<T, K>(s: seq<T>, key: T -> K, k: K): seq<T> {
    if |s| == 0 then []
    else (if key(s[0]) == k then [s[0]] else []) + KeyClass(s[1..], key, k)
  }

  /** Inserts `x` in front of the first element whose key is not strictly
      below its own, so `x` lands before every element it ties with. */
  function Insert<T, K>(x: T, s: seq<T>, key: T -> K, lt: (K, K) -> bool): (r: seq<T>)
    ensures multiset(r) == multiset(s) + multiset{x}
  {
    if |s| == 0 then [x]
    else if lt(key(s[0]), key(x)) then
      assert s == [s[0]] + s[1..];
      [s[0]] + Insert(x, s[1..], key, lt)
    else [x] + s
  }

  /** Stable sort: insert the head into the sorted tail. */
  function Sort<T, K>(s: seq<T>, key: T -> K, lt: (K, K) -> bool): (r: seq<T>)
    ensures multiset(r) == multiset(s)
    ensures |r| == |s|
  {
    if |s| == 0 then []
    else
      assert s == [s[0]] + s[1..];
      Insert(s[0], Sort(s[1..], key, lt), key, lt)
  }

  // ---------------------------------------------------------------------------
  // Order

  lemma {:induction false} InsertSorted<T, K(!new)>(x: T, s: seq<T>, key: T -> K, lt: (K, K) -> bool)
    requires StrictTotalOrder(lt)
    requires Sorted(s, key, lt)
    ensures Sorted(Insert(x, s, key, lt), key, lt)
  {
    if |s| > 0 {
      if lt(key(s[0]), key(x)) {
        var t := Insert(x, s[1..], key, lt);
        InsertSorted(x, s[1..], key, lt);
        forall j | 0 <= j < |t|
          ensures !lt(key(t[j]), key(s[0]))
        {
          assert t[j] in multiset(t);
          if t[j] != x {
            assert t[j] in multiset(s[1..]);
            var m :| 0 <= m < |s[1..]| && s[1..][m] == t[j];
            assert s[m + 1] == t[j];
          }
        }
      } else {
        forall j | 0 <= j < |s|
          ensures !lt(key(s[j]), key(x))
        {
          assert j == 0 || !lt(key(s[j]), key(s[0]));
        }
      }
    }
  }

  lemma {:induction false} SortSorted<T, K(!new)>(s: seq<T>, key: T -> K, lt: (K, K) -> bool)
    requires StrictTotalOrder(lt)
    ensures Sorted(Sort(s, key, lt), key, lt)
  {
    if |s| > 0 {
      SortSorted(s[1..], key, lt);
      InsertSorted(s[0], Sort(s[1..], key, lt), key, lt);
    }
  }

  // ---------------------------------------------------------------------------
  // Stability

  lemma {:induction false} KeyClassCons<T, K>(x: T, s: seq<T>, key: T -> K, k: K)
    ensures KeyClass([x] + s, key, k) == (if key(x) == k then [x] else []) + KeyClass(s, key, k)
  {
    assert ([x] + s)[1..] == s;
  }

  lemma {:induction false} KeyClassAppend<T, K>(a: seq<T>, b: seq<T>, key: T -> K, k: K)
    ensures KeyClass(a + b, key, k) == KeyClass(a, key, k) + KeyClass(b, key, k)
  {
    if |a| > 0 {
      assert (a + b)[1..] == a[1..] + b;
      KeyClassAppend(a[1..], b, key, k);
    } else {
      assert a + b == b;
    }
  }

  lemma {:induction false} KeyClassNone<T, K>(s: seq<T>, key: T -> K, k: K)
    requires forall i :: 0 <= i < |s| ==> key(s[i]) != k
    ensures KeyClass(s, key, k) == []
  {
    if |s| > 0 {
      KeyClassNone(s[1..], key, k);
    }
  }

  lemma {:induction false} InsertKeyClass<T, K(!new)>(x: T, s: seq<T>, key: T -> K, lt: (K, K) -> bool, k: K)
    requires Irreflexive(lt)
    ensures KeyClass(Insert(x, s, key, lt), key, k) == KeyClass([x] + s, key, k)
  {
    if |s| > 0 && lt(key(s[0]), key(x)) {
      var rest := s[1..];
      InsertKeyClass(x, rest, key, lt, k);
      assert s == [s[0]] + rest;
      assert Insert(x, s, key, lt) == [s[0]] + Insert(x, rest, key, lt);
      assert key(s[0]) != key(x) by {
        assert !lt(key(x), key(x));
      }
      SwapClass(x, s[0], rest, Insert(x, rest, key, lt), key, k);
    }
  }

  /** Moving `x` past an element `y` of a different key leaves every class
      unchanged. */
  lemma SwapClass<T, K>(x: T, y: T, rest: seq<T>, ins: seq<T>, key: T -> K, k: K)
    requires key(y) != key(x)
    requires KeyClass(ins, key, k) == KeyClass([x] + rest, key, k)
    ensures KeyClass([y] + ins, key, k) == KeyClass([x] + ([y] + rest), key, k)
  {
    KeyClassCons(x, rest, key, k);
    KeyClassCons(y, ins, key, k);
    KeyClassCons(y, rest, key, k);
    KeyClassCons(x, [y] + rest, key, k);
    var tail := KeyClass(rest, key, k);
    if key(x) == k {
      assert KeyClass([y] + ins, key, k) == [x] + tail;
      assert KeyClass([x] + ([y] + rest), key, k) == [x] + tail;
    } else if key(y) == k {
      assert KeyClass([y] + ins, key, k) == [y] + tail;
      assert KeyClass([x] + ([y] + rest), key, k) == [y] + tail;
    } else {
      assert KeyClass([y] + ins, key, k) == tail;
    }
  }

  lemma {:induction false} SortStable<T, K(!new)>(s: seq<T>, key: T -> K, lt: (K, K) -> bool, k: K)
    requires StrictTotalOrder(lt)
    ensures KeyClass(Sort(s, key, lt), key, k) == KeyClass(s, key, k)
  {
    if |s| > 0 {
      var t := Sort(s[1..], key, lt);
      InsertKeyClass(s[0], t, key, lt, k);
      KeyClassCons(s[0], t, key, k);
      SortStable(s[1..], key, lt, k);
    }
  }

  // ---------------------------------------------------------------------------
  // Uniqueness: order plus stability determine the result

  /** Two sorted permutations of each other start with elements of equal key. */
  lemma SortedHeadKeys<T, K(!new)>(a: seq<T>, b: seq<T>, key: T -> K, lt: (K, K) -> bool)
    requires StrictTotalOrder(lt)
    requires multiset(a) == multiset(b)
    requires Sorted(a, key, lt) && Sorted(b, key, lt)
    requires |a| > 0
    ensures |b| > 0 && key(a[0]) == key(b[0])
  {
    assert |a| == |multiset(a)| == |multiset(b)| == |b|;
    assert a[0] in multiset(b);
    var j :| 0 <= j < |b| && b[j] == a[0];
    assert b[0] in multiset(a);
    var i :| 0 <= i < |a| && a[i] == b[0];
    assert j == 0 || !lt(key(b[j]), key(b[0]));
    assert i == 0 || !lt(key(a[i]), key(a[0]));
  }

  /** Equal heads and equal key classes leave equal key classes for the tails. */
  lemma TailClasses<T, K>(a: seq<T>, b: seq<T>, key: T -> K)
    requires |a| > 0 && |b| > 0 && a[0] == b[0]
    requires forall k :: KeyClass(a, key, k) == KeyClass(b, key, k)
    ensures forall k :: KeyClass(a[1..], key, k) == KeyClass(b[1..], key, k)
  {
    forall k
      ensures KeyClass(a[1..], key, k) == KeyClass(b[1..], key, k)
    {
      var c := if key(a[0]) == k then [a[0]] else [];
      assert KeyClass(a, key, k) == c + KeyClass(a[1..], key, k);
      assert KeyClass(b, key, k) == c + KeyClass(b[1..], key, k);
      assert (c + KeyClass(a[1..], key, k))[|c|..] == KeyClass(a[1..], key, k);
      assert (c + KeyClass(b[1..], key, k))[|c|..] == KeyClass(b[1..], key, k);
    }
  }

  lemma SortedTail<T, K>(a: seq<T>, key: T -> K, lt: (K, K) -> bool)
    requires |a| > 0 && Sorted(a, key, lt)
    ensures Sorted(a[1..], key, lt)
  {
    var t := a[1..];
    forall i, j | 0 <= i < j < |t|
      ensures !lt(key(t[j]), key(t[i]))
    {
      assert t[i] == a[i + 1] && t[j] == a[j + 1];
    }
  }

  lemma MultisetTail<T>(a: seq<T>)
    requires |a| > 0
    ensures multiset(a[1..]) == multiset(a) - multiset{a[0]}
  {
    assert a == [a[0]] + a[1..];
  }

  /** The class of the head's key starts with the head. */
  lemma ClassHead<T, K>(a: seq<T>, key: T -> K)
    requires |a| > 0
    ensures |KeyClass(a, key, key(a[0]))| > 0 && KeyClass(a, key, key(a[0]))[0] == a[0]
  {
  }

  /** Heads of equal key whose key classes agree are the same element. */
  lemma SameHead<T, K>(a: seq<T>, b: seq<T>, key: T -> K)
    requires |a| > 0 && |b| > 0 && key(a[0]) == key(b[0])
    requires KeyClass(a, key, key(a[0])) == KeyClass(b, key, key(a[0]))
    ensures a[0] == b[0]
  {
    ClassHead(a, key);
    ClassHead(b, key);
  }

  lemma {:induction false} SortedUnique<T, K(!new)>(a: seq<T>, b: seq<T>, key: T -> K, lt: (K, K) -> bool)
    requires StrictTotalOrder(lt)
    requires multiset(a) == multiset(b)
    requires Sorted(a, key, lt) && Sorted(b, key, lt)
    requires forall k :: KeyClass(a, key, k) == KeyClass(b, key, k)
    ensures a == b
  {
    if |a| == 0 {
      assert |b| == |multiset(b)| == 0;
    } else {
      assert a[0] == b[0] by {
        SortedHeadKeys(a, b, key, lt);
        SameHead(a, b, key);
      }
      assert multiset(a[1..]) == multiset(b[1..]) by {
        MultisetTail(a);
        MultisetTail(b);
      }
      TailClasses(a, b, key);
      SortedTail(a, key, lt);
      SortedTail(b, key, lt);
      SortedUnique(a[1..], b[1..], key, lt);
      assert a == [a[0]] + a[1..] && b == [b[0]] + b[1..];
    }
  }

  /** Any sorted permutation of `s` that keeps tied elements in their input
      order is `Sort(s)`: the sort is the one Python's stable sort computes. */
  lemma SortUnique<T, K(!new)>(a: seq<T>, s: seq<T>, key: T -> K, lt: (K, K) -> bool)
    requires StrictTotalOrder(lt)
    requires multiset(a) == multiset(s)
    requires Sorted(a, key, lt)
    requires forall k :: KeyClass(a, key, k) == KeyClass(s, key, k)
    ensures a == Sort(s, key, lt)
  {
    SortSorted(s, key, lt);
    forall k
      ensures KeyClass(a, key, k) == KeyClass(Sort(s, key, lt), key, k)
    {
      SortStable(s, key, lt, k);
    }
    SortedUnique(a, Sort(s, key, lt), key, lt);
  }

  // ---------------------------------------------------------------------------
  // The last maximal element

  /** Index of the maximum by key, the later one on ties: no key beats it and
      every element after it has a strictly smaller key. */
  function LastMax<T, K(!new)>(s: seq<T>, key: T -> K, lt: (K, K) -> bool): (i: nat)
    requires |s| > 0
    requires StrictTotalOrder(lt)
    ensures i < |s|
    ensures forall j :: 0 <= j < |s| ==> !lt(key(s[i]), key(s[j]))
    ensures forall j :: i < j < |s| ==> lt(key(s[j]), key(s[i]))
  {
    if |s| == 1 then 0
    else
      var n := |s| - 1;
      var p := LastMax(s[..n], key, lt);
      assert forall j :: 0 <= j < n ==> s[..n][j] == s[j];
      if lt(key(s[n]), key(s[p])) then p else n
  }

  /** The last element of the sorted sequence has the maximal key. */
  lemma SortLastKey<T, K(!new)>(s: seq<T>, key: T -> K, lt: (K, K) -> bool)
    requires |s| > 0
    requires StrictTotalOrder(lt)
    ensures key(Sort(s, key, lt)[|s| - 1]) == key(s[LastMax(s, key, lt)])
  {
    var r := Sort(s, key, lt);
    var n := |s|;
    var m := LastMax(s, key, lt);
    SortSorted(s, key, lt);
    NoneAboveMax(s, r, m, key, lt);
    assert s[m] in multiset(r);
    LastNotBelow(r, s[m], key, lt);
  }

  /** An element of a permutation of `s` is not above `s`'s maximum. */
  lemma NoneAboveMax<T, K>(s: seq<T>, r: seq<T>, m: nat, key: T -> K, lt: (K, K) -> bool)
    requires m < |s| == |r|
    requires multiset(r) == multiset(s)
    requires forall j :: 0 <= j < |s| ==> !lt(key(s[m]), key(s[j]))
    ensures !lt(key(s[m]), key(r[|r| - 1]))
  {
    assert r[|r| - 1] in multiset(s);
    var j :| 0 <= j < |s| && s[j] == r[|r| - 1];
  }

  /** The last element of a sorted sequence is below none of its elements. */
  lemma LastNotBelow<T, K>(r: seq<T>, x: T, key: T -> K, lt: (K, K) -> bool)
    requires x in r
    requires Sorted(r, key, lt)
    ensures key(r[|r| - 1]) == key(x) || !lt(key(r[|r| - 1]), key(x))
  {
    var i :| 0 <= i < |r| && r[i] == x;
  }

  lemma KeyClassSnoc<T, K>(s: seq<T>, x: T, key: T -> K, k: K)
    requires key(x) == k
    ensures KeyClass(s + [x], key, k) == KeyClass(s, key, k) + [x]
  {
    KeyClassAppend(s, [x], key, k);
    KeyClassCons(x, [], key, k);
  }

  /** When every element after `m` has a strictly smaller key, none of them
      is in the class of `s[m]`'s key. */
  lemma KeyClassAfter<T, K(!new)>(s: seq<T>, m: nat, key: T -> K, lt: (K, K) -> bool)
    requires m < |s|
    requires Irreflexive(lt)
    requires forall j :: m < j < |s| ==> lt(key(s[j]), key(s[m]))
    ensures KeyClass(s[m + 1..], key, key(s[m])) == []
  {
    var km := key(s[m]);
    var after := s[m + 1..];
    forall i | 0 <= i < |after|
      ensures key(after[i]) != km
    {
      assert after[i] == s[m + 1 + i];
      assert !lt(km, km);
    }
    KeyClassNone(after, key, km);
  }

  /** The class of `k` in `s`, split around position `m`. */
  lemma {:induction false} KeyClassSplit<T, K>(s: seq<T>, m: nat, key: T -> K, k: K)
    requires m < |s|
    ensures KeyClass(s, key, k)
            == KeyClass(s[..m], key, k) + (if key(s[m]) == k then [s[m]] else []) + KeyClass(s[m + 1..], key, k)
    decreases m
  {
    if m == 0 {
      assert s[..0] == [];
    } else {
      var t := s[1..];
      var h := if key(s[0]) == k then [s[0]] else [];
      var c := if key(s[m]) == k then [s[m]] else [];
      KeyClassSplit(t, m - 1, key, k);
      assert t[..m - 1] == s[..m][1..];
      assert t[m - 1] == s[m];
      assert t[m..] == s[m + 1..];
      assert KeyClass(s, key, k) == h + KeyClass(t, key, k);
      assert KeyClass(s[..m], key, k) == h + KeyClass(s[..m][1..], key, k);
      assert KeyClass(t, key, k) == KeyClass(s[..m][1..], key, k) + c + KeyClass(s[m + 1..], key, k);
    }
  }

  /** When every element after `m` has a strictly smaller key, the class of
      `s[m]`'s key ends with `s[m]`. */
  lemma KeyClassEndsAt<T, K(!new)>(s: seq<T>, m: nat, key: T -> K, lt: (K, K) -> bool)
    requires m < |s|
    requires Irreflexive(lt)
    requires forall j :: m < j < |s| ==> lt(key(s[j]), key(s[m]))
    ensures KeyClass(s, key, key(s[m])) == KeyClass(s[..m], key, key(s[m])) + [s[m]]
  {
    KeyClassSplit(s, m, key, key(s[m]));
    KeyClassAfter(s, m, key, lt);
  }

  /** Two sequences with the same class for `k`, each ending (in that class)
      with a given element, agree on that element. */
  lemma SameClassSameLast<T, K>(r: seq<T>, s: seq<T>, m: nat, key: T -> K, k: K)
    requires |r| > 0 && m < |s|
    requires key(r[|r| - 1]) == k
    requires KeyClass(r, key, k) == KeyClass(s, key, k)
    requires KeyClass(s, key, k) == KeyClass(s[..m], key, k) + [s[m]]
    ensures r[|r| - 1] == s[m]
  {
    var x := r[|r| - 1];
    var front := r[..|r| - 1];
    SplitLast(r);
    KeyClassSnoc(front, x, key, k);
    SnocInjective(KeyClass(front, key, k), x, KeyClass(s[..m], key, k), s[m]);
  }

  lemma SplitLast<T>(r: seq<T>)
    requires |r| > 0
    ensures r[..|r| - 1] + [r[|r| - 1]] == r
  {
  }

  /** Equal sequences have equal last elements. */
  lemma SnocInjective<T>(a: seq<T>, x: T, b: seq<T>, y: T)
    requires a + [x] == b + [y]
    ensures x == y
  {
    assert (a + [x])[|a|] == x && (b + [y])[|b|] == y;
  }

  /** Sorting ascending and taking the last element picks the last maximal
      element of the input. */
  lemma SortLastIsLastMax<T, K(!new)>(s: seq<T>, key: T -> K, lt: (K, K) -> bool)
    requires |s| > 0
    requires StrictTotalOrder(lt)
    ensures Sort(s, key, lt)[|s| - 1] == s[LastMax(s, key, lt)]
  {
    var r := Sort(s, key, lt);
    var m := LastMax(s, key, lt);
    var km := key(s[m]);
    SortLastKey(s, key, lt);
    SortStable(s, key, lt, km);
    KeyClassEndsAt(s, m, key, lt);
    SameClassSameLast(r, s, m, key, km);
  }
}

=== FILE: text.dfy ===
/** The handful of Python `str` operations the selection logic relies on,
    restricted to ASCII text: substring test (`sub in s`), ordering (`a < b`),
    `strip()`, `isdigit()`, and `int()` / `str()` on decimal numbers. */
module Text {
  import opened Wrappers

  // ---------------------------------------------------------------------------
  // Substrings

  /** `sub` occurs in `s` as a contiguous block: the meaning of Python's `sub in s`. */
  ghost predicate Occurs(sub: string, s: string) {
    exists i :: OccursAt(sub, s, i)
  }

  ghost predicate OccursAt(sub: string, s: string, i: int) {
    0 <= i <= |s| - |sub| && s[i..i + |sub|] == sub
  }

  /** `sub[j..]` matches `s` at offset `i + j`, compared character by character. */
  predicate MatchesAt(s: string, sub: string, i: nat, j: nat)
    requires i + |sub| <= |s| && j <= |sub|
    decreases |sub| - j
  {
    j == |sub| || (s[i + j] == sub[j] && MatchesAt(s, sub, i, j + 1))
  }

  lemma {:induction false} MatchesAtIsSlice(s: string, sub: string, i: nat, j: nat)
    requires i + |sub| <= |s| && j <= |sub|
    ensures MatchesAt(s, sub, i, j) <==> s[i + j..i + |sub|] == sub[j..]
    decreases |sub| - j
  {
    if j < |sub| {
      MatchesAtIsSlice(s, sub, i, j + 1);
      assert s[i + j..i + |sub|] == [s[i + j]] + s[i + j + 1..i + |sub|];
      assert sub[j..] == [sub[j]] + sub[j + 1..];
    }
  }

  /** `sub` occurs in `s` at some offset `i >= start`. */
  predicate ContainsFrom(s: string, sub: string, start: nat)
    decreases |s| - start
  {
    start + |sub| <= |s| && (MatchesAt(s, sub, start, 0) || ContainsFrom(s, sub, start + 1))
  }

  lemma {:induction false} ContainsFromOccurs(s: string, sub: string, start: nat)
    ensures ContainsFrom(s, sub, start) <==> exists i :: start <= i && OccursAt(sub, s, i)
    decreases |s| - start
  {
    if start + |sub| <= |s| {
      MatchesAtIsSlice(s, sub, start, 0);
      ContainsFromOccurs(s, sub, start + 1);
      assert sub[0..] == sub;
      if MatchesAt(s, sub, start, 0) {
        assert OccursAt(sub, s, start);
      }
      if exists i :: start <= i && OccursAt(sub, s, i) {
        var i :| start <= i && OccursAt(sub, s, i);
        assert i == start || start + 1 <= i;
      }
    }
  }

  /** Executable substring test: Python's `sub in s`. */
  function Contains(s: string, sub: string): (r: bool)
    ensures r <==> Occurs(sub, s)
  {
    ContainsFromOccurs(s, sub, 0);
    ContainsFrom(s, sub, 0)
  }

  /** Python's `any(sub in x for x in xs)`. */
  function AnyContains(xs: seq<string>, sub: string): (r: bool)
    ensures r <==> exists i :: 0 <= i < |xs| && Occurs(sub, xs[i])
  {
    if |xs| == 0 then false
    else if Contains(xs[0], sub) then true
    else
      assert forall i :: 1 <= i < |xs| ==> xs[i] == xs[1..][i - 1];
      AnyContains(xs[1..], sub)
  }

  // ---------------------------------------------------------------------------
  // Ordering

  /** Python's `a < b` on `str`: lexicographic by code point, a proper prefix first. */
  predicate Less(a: string, b: string) {
    if |a| == 0 then |b| > 0
    else if |b| == 0 then false
    else if a[0] != b[0] then a[0] < b[0]
    else Less(a[1..], b[1..])
  }

  lemma {:induction false} LessIrreflexive(a: string)
    ensures !Less(a, a)
  {
    if |a| > 0 {
      LessIrreflexive(a[1..]);
    }
  }

  lemma {:induction false} LessTransitive(a: string, b: string, c: string)
    requires Less(a, b) && Less(b, c)
    ensures Less(a, c)
  {
    if |a| > 0 && |b| > 0 && |c| > 0 && a[0] == b[0] == c[0] {
      LessTransitive(a[1..], b[1..], c[1..]);
    }
  }

  lemma {:induction false} LessTotal(a: string, b: string)
    ensures a == b || Less(a, b) || Less(b, a)
  {
    if |a| > 0 && |b| > 0 && a[0] == b[0] {
      LessTotal(a[1..], b[1..]);
      if a[1..] == b[1..] {
        assert a == [a[0]] + a[1..] && b == [b[0]] + b[1..];
      }
    }
  }

  // ---------------------------------------------------------------------------
  // Whitespace

  /** `str.isspace()` on ASCII: tab, line feed, vertical tab, form feed,
      carriage return, the four separators 0x1C..0x1F, and space. */
  predicate IsSpace(c: char) {
    9 <= c as int <= 13 || 28 <= c as int <= 32
  }

  function TrimStart(s: string): (r: string)
    ensures |r| <= |s| && r == s[|s| - |r|..]
    ensures forall k :: 0 <= k < |s| - |r| ==> IsSpace(s[k])
    ensures r == [] || !IsSpace(r[0])
  {
    if |s| > 0 && IsSpace(s[0]) then
      var t := s[1..];
      var r := TrimStart(t);
      assert t[|t| - |r|..] == s[|s| - |r|..];
      assert forall k :: 1 <= k < |s| ==> s[k] == t[k - 1];
      r
    else s
  }

  function TrimEnd(s: string): (r: string)
    ensures |r| <= |s| && r == s[..|r|]
    ensures forall k :: |r| <= k < |s| ==> IsSpace(s[k])
    ensures r == [] || !IsSpace(r[|r| - 1])
  {
    if |s| > 0 && IsSpace(s[|s| - 1]) then
      var t := s[..|s| - 1];
      var r := TrimEnd(t);
      assert t[..|r|] == s[..|r|];
      assert forall k :: 0 <= k < |t| ==> s[k] == t[k];
      r
    else s
  }

  /** Python's `str.strip()`: whitespace removed from both ends. */
  function Strip(s: string): (r: string)
    ensures |r| <= |s|
    ensures r == [] || (!IsSpace(r[0]) && !IsSpace(r[|r| - 1]))
  {
    var t := TrimStart(s);
    var r := TrimEnd(t);
    assert r == [] || r[0] == t[0];
    r
  }

  /** What `strip()` returns is a middle block of its input, and only
      whitespace is cut off on either side. With the ends of the result not
      being whitespace, this fixes the result. */
  lemma StripMargins(s: string)
    ensures exists i, j :: Margins(s, i, j) && Strip(s) == s[i..j]
  {
    var t := TrimStart(s);
    var i := |s| - |t|;
    var r := TrimEnd(t);
    var j := i + |r|;
    assert r == s[i..j] by {
      assert t == s[i..] && r == t[..|r|];
    }
    forall k | j <= k < |s|
      ensures IsSpace(s[k])
    {
      assert s[k] == t[k - i];
    }
    assert Margins(s, i, j);
  }

  /** Everything before `i` and from `j` on is whitespace. */
  ghost predicate Margins(s: string, i: int, j: int) {
    && 0 <= i <= j <= |s|
    && (forall k :: 0 <= k < i ==> IsSpace(s[k]))
    && (forall k :: j <= k < |s| ==> IsSpace(s[k]))
  }

  lemma StripIdempotent(s: string)
    ensures Strip(Strip(s)) == Strip(s)
  {
    var r := Strip(s);
    assert TrimStart(r) == r;
    assert TrimEnd(r) == r;
  }

  /** One blank on either side of a word is all `strip()` removes. */
  lemma StripPadded(d: string)
    requires |d| > 0 && !IsSpace(d[0]) && !IsSpace(d[|d| - 1])
    ensures Strip(" " + d + " ") == d
  {
    var t := d + " ";
    assert (" " + d + " ")[1..] == t;
    assert t[0] == d[0];
    assert TrimStart(t) == t;
    assert TrimStart(" " + d + " ") == t;
    assert t[..|t| - 1] == d;
    assert TrimEnd(d) == d;
  }

  /** `int()` strips its argument itself, so stripping first changes nothing. */
  lemma ParseIntStripped(s: string)
    ensures ParseInt(Strip(s)) == ParseInt(s)
  {
    StripIdempotent(s);
  }

  // ---------------------------------------------------------------------------
  // Decimal numbers

  predicate IsDigit(c: char) {
    '0' <= c <= '9'
  }

  /** Python's `str.isdigit()` on ASCII text: non-empty and only digits. */
  predicate AllDigits(s: string) {
    |s| > 0 && forall i :: 0 <= i < |s| ==> IsDigit(s[i])
  }

  function DigitsValue(s: string): nat
    requires forall i :: 0 <= i < |s| ==> IsDigit(s[i])
  {
    if |s| == 0 then 0
    else 10 * DigitsValue(s[..|s| - 1]) + DigitValue(s[|s| - 1])
  }

  function DigitValue(c: char): nat
    requires IsDigit(c)
  {
    c as int - '0' as int
  }

  /** Python's `str(n)` for a natural number. */
  function DecimalString(n: nat): (r: string)
    ensures AllDigits(r)
    ensures DigitsValue(r) == n
    ensures r[0] != '0' || n == 0
  {
    var last := ('0' as int + n % 10) as char;
    if n < 10 then
      assert DigitsValue([last]) == DigitsValue([]) * 10 + n;
      [last]
    else
      var front := DecimalString(n / 10);
      assert (front + [last])[..|front|] == front;
      front + [last]
  }

  /** Digits with single underscores between them, the digit part `int()` accepts. */
  predicate Grouped(s: string) {
    && |s| > 0
    && IsDigit(s[0])
    && IsDigit(s[|s| - 1])
    && (forall i :: 0 <= i < |s| ==> IsDigit(s[i]) || s[i] == '_')
    && (forall i :: 0 <= i < |s| - 1 ==> s[i] != '_' || s[i + 1] != '_')
  }

  /** How many digits a grouped number has: its underscores do not count. */
  function DigitCount(s: string): (r: nat)
    ensures r <= |s|
  {
    if |s| == 0 then 0
    else DigitCount(s[..|s| - 1]) + (if s[|s| - 1] == '_' then 0 else 1)
  }

  /** The value the digits of a grouped number spell, underscores skipped. */
  function GroupedValue(s: string): nat
    requires forall i :: 0 <= i < |s| ==> IsDigit(s[i]) || s[i] == '_'
  {
    if |s| == 0 then 0
    else if s[|s| - 1] == '_' then GroupedValue(s[..|s| - 1])
    else 10 * GroupedValue(s[..|s| - 1]) + DigitValue(s[|s| - 1])
  }

  /** Without underscores, every character is a digit of the number. */
  lemma {:induction false} PlainDigits(d: string)
    requires forall i :: 0 <= i < |d| ==> IsDigit(d[i])
    ensures DigitCount(d) == |d| && GroupedValue(d) == DigitsValue(d)
  {
    if |d| > 0 {
      PlainDigits(d[..|d| - 1]);
    }
  }

  /** The most digits `int()` converts from text: the default of Python's
      `sys.int_info.default_max_str_digits`. Underscores do not count. */
  const MaxStrDigits: nat := 4300

  /** `str(e)` of the `ValueError` `int()` raises on `n` digits, past the limit. */
  function DigitLimitError(n: nat): string {
    "Exceeds the limit (4300 digits) for integer string conversion: value has "
      + DecimalString(n) + " digits; use sys.set_int_max_str_digits() to increase the limit"
  }

  /** The unsigned part of `int()`: grouped digits, no more than the limit. */
  function Unsigned(body: string): (r: Option<nat>)
    ensures r.Some? ==> Grouped(body) && DigitCount(body) <= MaxStrDigits
    ensures AllDigits(body) ==> r == if |body| <= MaxStrDigits then Some(DigitsValue(body)) else None
  {
    assert AllDigits(body) ==> Grouped(body) && DigitCount(body) == |body| && GroupedValue(body) == DigitsValue(body) by {
      if AllDigits(body) {
        PlainDigits(body);
      }
    }
    if !Grouped(body) || DigitCount(body) > MaxStrDigits then None
    else Some(GroupedValue(body))
  }

  /** Python's `int(s)` in base 10 on ASCII text: surrounding whitespace,
      an optional sign, then digits grouped by single underscores, at most
      `MaxStrDigits` of them; `None` where Python raises `ValueError`. */
  function ParseInt(s: string): (r: Option<int>)
    ensures Strip(s) == [] ==> r.None?
  {
    Signed(Strip(s))
  }

  /** Stripped text: an optional sign, then what `Unsigned` reads. */
  function Signed(t: string): Option<int> {
    if |t| > 0 && (t[0] == '+' || t[0] == '-') then
      match Unsigned(t[1..])
      case None => None
      case Some(v) => Some(if t[0] == '-' then -(v as int) else v)
    else Unsigned(t)
  }

  /** Text that neither starts nor ends with whitespace is its own strip. */
  lemma StripOfTrimmed(s: string)
    requires s == [] || (!IsSpace(s[0]) && !IsSpace(s[|s| - 1]))
    ensures Strip(s) == s
  {
    assert TrimStart(s) == s;
  }

  lemma StripOfDigits(s: string)
    requires AllDigits(s)
    ensures Strip(s) == s
  {
    StripOfTrimmed(s);
  }

  /** On a string `isdigit()` accepts, `int()` yields the same value the
      digit-by-digit reading gives, unless there are too many digits. */
  lemma ParseIntOfDigits(s: string)
    requires AllDigits(s)
    ensures ParseInt(s) == if |s| <= MaxStrDigits then Some(DigitsValue(s)) else None
  {
    StripOfDigits(s);
  }

  /** `int(str(n)) == n`, for as many digits as `int()` converts. */
  lemma ParseIntDecimal(n: nat)
    ensures ParseInt(DecimalString(n)) == if |DecimalString(n)| <= MaxStrDigits then Some(n) else None
  {
    ParseIntOfDigits(DecimalString(n));
  }

  /** `int("-" + str(n)) == -n`, for as many digits as `int()` converts. */
  lemma ParseIntNegative(n: nat)
    ensures ParseInt("-" + DecimalString(n))
            == if |DecimalString(n)| <= MaxStrDigits then Some(-(n as int)) else None
  {
    var d := DecimalString(n);
    StripMinusDigits(d);
    ParseIntMinus(d);
  }

  lemma StripMinusDigits(d: string)
    requires AllDigits(d)
    ensures Strip("-" + d) == "-" + d
  {
    var s := "-" + d;
    assert s[0] == '-' && s[|s| - 1] == d[|d| - 1];
    StripOfTrimmed(s);
  }

  /** Once stripping leaves it alone, `"-" + d` reads as the negated unsigned part. */
  lemma ParseIntMinus(d: string)
    requires Strip("-" + d) == "-" + d
    ensures ParseInt("-" + d) == match Unsigned(d) case None => None case Some(v) => Some(-(v as int))
  {
    assert ("-" + d)[1..] == d;
  }
}

=== FILE: wrappers.dfy ===
/** Failure-compatible wrappers: `Option` for Python's "value or None" and
    `Result` for "value or a raised exception, caught further up". */
module Wrappers {

  datatype Option<+T> = None | Some(value: T) {

    predicate IsFailure() {
      None?
    }

    function PropagateFailure<U>(): Option<U>
      requires None?
    {
      None
    }

    function Extract(): T
      requires Some?
    {
      value
    }
  }

  /** `Failure(detail)` carries the text Python's `str(e)` would give. */
  datatype Result<+R> = Success(value: R) | Failure(detail: string) {

    predicate IsFailure() {
      Failure?
    }

    function PropagateFailure<U>(): Result<U>
      requires Failure?
    {
      Failure(detail)
    }

    function Extract(): R
      requires Success?
    {
      value
    }
  }
}
